=== FILE: README.md ===
# Google Cloud Storage object operations of Apache Beam's Python SDK

This project models the request logic of `GcsIO`, the connector through which
Beam's Python pipelines read, write, copy and delete objects in Google Cloud
Storage. The model covers:

- `parse_gcs_path`: splitting `gs://<bucket>/<object>` into its two parts,
  exactly as the regular expression `^gs://([^/]+)/(.*)$` does. This includes
  the newline corners of Python's `re`: the bucket may contain a newline, the
  object may not, and one final newline after the object is accepted and
  dropped.
- `delete`: a 404 counts as success.
- `delete_batch`: the paths are cut into consecutive rounds of at most
  `MAX_BATCH_OPERATION_SIZE` (100) deletes. Each round is parsed, sent as one
  batch, and its sub-responses are paired with the round's paths in order.
- `copy`: the rewrite loop. It threads each reply's `rewriteToken` into the
  next request until a reply is `done`.
- `rename`: a copy, then a delete, with no atomicity.
- `copy_batch`: per-pair rewrite state is driven round by round. A pair leaves
  the batch when it gets a status. A 404 becomes
  `GcsIOError(ENOENT, 'Source file not found: <src>')`. The result echoes the
  input order.
- `list_files`: paging through `objects.List` with `nextPageToken` and
  yielding each file name once.
- `list_prefix`: the listing gathered into a dictionary.
- `copytree`: every listed object is copied to the same relative path under
  the destination.
- `get_project_number`: the per-client memo of bucket project numbers.

The storage service is a parameter everywhere. A single call is a function
from the call's position and the request to a reply or an error. A batch call
is a function from the round number and the list of requests to the list of
sub-replies. Because the position is an argument, the service may answer
differently each time. It may also return too few or too many sub-replies,
and the model follows the source in both cases:

- `copy_batch` uses `zip`, so pairs left without a reply stay pending.
- In `delete_batch`, `enumerate` over extra sub-replies raises `IndexError`.

The loops that may run forever take a `fuel` bound and end in `OutOfFuel`
when it is used up:

- the `copy` rewrite loop;
- the `copy_batch` rounds;
- the `list_files` pages.

The runs of `delete_batch`, `copy`, `rename`, `list_files` and `copytree`
record what they sent, and the contracts relate each request to the
replies before it. A `copy_batch` run records the state before each round
instead. The batch of round `k` is then the current requests of the pairs
still pending in state `k`.

Two loops are written over a parameter and then given the real thing.
The `delete_batch` rounds take the function that builds one path's request;
`delete_batch` passes the path parser. The `copy_batch` loop takes the
function that runs one round; `copy_batch` passes the round against the
batch endpoint. Lemmas about the shape of these loops hold for any such
function. Lemmas that need a property of the real one take that property as
a premise, and a separate lemma proves it for the real one.

Modules: `Wrappers` (Option/Result), `Errors`, `Seqs`, `GcsPath`,
`GcsDelete`, `GcsCopy` (copy and rename), `GcsCopyBatch`, `GcsListing`,
`GcsTree` (list_prefix and copytree) and `GcsProjectNumber`.

## Model

| member | source | states |
|---|---|---|
| GcsPath.ParseGcsPath | sdks/python/apache_beam/io/gcp/gcsio.py:116-123 | On success: the bucket is non-empty and has no `/`; the object has no newline and is non-empty unless `object_optional`; the path is `gs://bucket/object`, possibly followed by one newline. On failure: the `ValueError` naming the path. |
| GcsPath.ObjectGroup | sdks/python/apache_beam/io/gcp/gcsio.py:118 | `(.*)$` captures a newline-free text, and the rest is that text or that text plus one final newline. Text without a newline is captured whole. |
| GcsPath.ParseJoin | sdks/python/apache_beam/io/gcp/gcsio.py:116-123 | Round trip: parsing `gs://b/o` gives back exactly `(b, o)` for every acceptable pair, and so does `gs://b/o` followed by a newline. |
| GcsPath.ParseAcceptsExactly | sdks/python/apache_beam/io/gcp/gcsio.py:118-122 | A path is accepted if and only if it spells some acceptable bucket and object. |
| GcsPath.ParseBucketOnly | sdks/python/apache_beam/io/gcp/gcsio.py:119 | `gs://b/` is accepted, with an empty object, exactly when the object is optional. Otherwise the `ValueError` is raised. |
| GcsPath.ParseDeterministic | sdks/python/apache_beam/io/gcp/gcsio.py:118 | A path spells at most one bucket and object. |
| GcsDelete.DeleteStatus | sdks/python/apache_beam/io/gcp/gcsio.py:318-323 | A successful sub-reply leaves no error. A failed one leaves no error exactly when it is a 404, and otherwise leaves its own error, so the status is never a 404. |
| GcsDelete.DeleteRequestFor | sdks/python/apache_beam/io/gcp/gcsio.py:311-313 | A path gets a delete request exactly when it parses, and the request names the parsed bucket and object. A malformed path gives the `ValueError` naming it. |
| GcsDelete.DeleteRequestForJoin | sdks/python/apache_beam/io/gcp/gcsio.py:311-313 | The request for `gs://bucket/name` deletes exactly that bucket's object `name`. |
| GcsDelete.Delete | sdks/python/apache_beam/io/gcp/gcsio.py:265-282 | A malformed path raises the parse error. Otherwise the result is success exactly when the reply is success or a 404. Any other error is raised unchanged, so `delete` never raises a 404. |
| GcsDelete.DeleteMissingSucceeds | sdks/python/apache_beam/io/gcp/gcsio.py:278-281 | Deleting an object that is already gone succeeds, for every 404 reply whatever its content, so repeating a delete is harmless. |
| GcsDelete.Chunks | sdks/python/apache_beam/io/gcp/gcsio.py:300-305 | `islice` cuts ⌈n/100⌉ rounds. Each round holds 1 to 100 paths, all but the last exactly 100, and together they are the input in order. |
| GcsDelete.ChunksAreConsecutive | sdks/python/apache_beam/io/gcp/gcsio.py:300-303 | Round `k` is the slice `[100k, min(100(k+1), n))` of the input. |
| GcsDelete.FirstRejected | sdks/python/apache_beam/io/gcp/gcsio.py:310-311 | The position of the first path the parser rejects: every path before it parses, and the path there does not. It is the length of the list when every path parses. |
| GcsDelete.DeleteRequests | sdks/python/apache_beam/io/gcp/gcsio.py:310-314 | A round's requests exist if and only if all of its paths parse, and request `i` is path `i`'s. Otherwise the error is the parse error of the round's first malformed path. |
| GcsDelete.RoundEntries | sdks/python/apache_beam/io/gcp/gcsio.py:316-324 | One `(path, status)` entry per sub-reply: entry `i` pairs path `i` with reply `i`'s status. |
| GcsDelete.DeleteRounds | sdks/python/apache_beam/io/gcp/gcsio.py:302-325 | Round `k` builds the requests of chunk `k` just before sending them as batch number `round + k`. A finished run sent every chunk, and none of its statuses is a 404. |
| GcsDelete.DeleteBatch | sdks/python/apache_beam/io/gcp/gcsio.py:286-325 | Empty input gives `[]` with nothing sent. Otherwise batch `k` holds 1 to 100 requests, those of the `k`-th consecutive chunk. A finished run sent ⌈n/100⌉ batches and reports no 404. The call never stops early without an outcome: it either returns or raises. |
| GcsDelete.DeleteBatchOnePerPath | sdks/python/apache_beam/io/gcp/gcsio.py:293-296 | With one sub-reply per request and well-formed paths, the result has one entry per path, in input order. The `i`-th request sent is path `i`'s, and entry `i` is `(path i, status of reply i)`. |
| GcsDelete.DeleteRoundsSentInOrder | sdks/python/apache_beam/io/gcp/gcsio.py:302-314 | For any batch endpoint, the requests sent across all rounds are those of the input paths, in input order. A finished call sent one request per path. |
| GcsDelete.DeleteRoundsEntriesInOrder | sdks/python/apache_beam/io/gcp/gcsio.py:316-325 | With one sub-reply per request, a finished call has one entry per path and per sub-reply. Entry `i` pairs path `i` with the status of sub-reply `i`. |
| GcsDelete.DeleteRequestForNoIndexError | sdks/python/apache_beam/io/gcp/gcsio.py:116-123 | A path fails to parse only with `ValueError`, never with `IndexError`. |
| GcsDelete.DeleteRoundsShortBeforeLast | sdks/python/apache_beam/io/gcp/gcsio.py:315-317 | For any batch endpoint, every round before the last got at most one sub-reply per path: more sub-replies would have made `paths_chunk[i]` fail. |
| GcsDelete.DeleteRoundsIndexError | sdks/python/apache_beam/io/gcp/gcsio.py:315-317 | For any batch endpoint, and paths whose parsing never raises `IndexError`, `IndexError` is raised if and only if the last round sent got more sub-replies than it had paths. |
| GcsDelete.DeleteRoundsEntryCount | sdks/python/apache_beam/io/gcp/gcsio.py:316-325 | For any batch endpoint, a finished call returns exactly one entry per sub-reply received, so a round answered short yields fewer entries than it had paths. |
| GcsDelete.DeleteBatchFinishesIffWellFormed | sdks/python/apache_beam/io/gcp/gcsio.py:310-311 | With one sub-reply per request, `delete_batch` returns if and only if every path parses. When it raises, the error is the first malformed path's parse error. |
| GcsDelete.DeleteRoundsRaise | sdks/python/apache_beam/io/gcp/gcsio.py:302-325 | With one sub-reply per request, a finished call had every path parse, and a raised error is the parse error of the first malformed path across all rounds. |
| GcsDelete.DeleteRoundsStopAtBadChunk | sdks/python/apache_beam/io/gcp/gcsio.py:302-314 | For any batch endpoint, a call that raises anything but `IndexError` stopped at a round holding a malformed path. Every round before it was sent, and the error is that round's first parse error. |
| GcsDelete.DeleteBatchStopsAtBadChunk | sdks/python/apache_beam/io/gcp/gcsio.py:302-314 | A `delete_batch` that raises a parse error has already sent, and so deleted, every round before the one holding the path, and does not send that round. |
| GcsCopy.RewriteRequestFor | sdks/python/apache_beam/io/gcp/gcsio.py:350-358 | The first rewrite request exists if and only if both paths parse. It carries both buckets and objects, the KMS key and the byte limit, and no token. The source path's parse error comes first, and when only the destination is malformed its `ValueError` is raised. |
| GcsCopy.RewriteLoop | sdks/python/apache_beam/io/gcp/gcsio.py:359-370 | Every request is the first with a different token. Each later request carries the token of a "not done" reply to the one before it. The loop finishes on a done reply and raises the error of an error reply. |
| GcsCopy.Copy | sdks/python/apache_beam/io/gcp/gcsio.py:327-372 | A bad path raises before anything is sent. The first call carries no token, and each later call threads the previous reply's token. The copy finishes exactly on the first done reply, and an error reply is raised unchanged, a 404 included. Running out of the call bound means every reply so far was "not done". |
| GcsCopy.CopyStopsAtFirstDone | sdks/python/apache_beam/io/gcp/gcsio.py:360 | In a finished copy, no reply before the last was done and the last one was. |
| GcsCopy.CopyThreadsTwoTokens | sdks/python/apache_beam/io/gcp/gcsio.py:360-368 | A copy answered by "not done, T1", "not done, T2", "done" sends three requests with tokens none, T1, T2 and finishes. |
| GcsCopy.Rename | sdks/python/apache_beam/io/gcp/gcsio.py:469-477 | The copy runs first. The delete of the source is issued only after the copy finished, and exactly then. Rename finishes only if both steps do. A copy that does not finish ends the call with its outcome, and a delete that fails after a finished copy is raised. |
| GcsCopyBatch.CopyError | sdks/python/apache_beam/io/gcp/gcsio.py:429-435 | A failed rewrite records a 404 as `GcsIOError(ENOENT, 'Source file not found: src')` and keeps every other error. The recorded error is never a 404. |
| GcsCopyBatch.Pending | sdks/python/apache_beam/io/gcp/gcsio.py:414-416 | The batch holds only input pairs without a status, each once. It is empty if and only if every pair has a status. |
| GcsCopyBatch.PendingComplete | sdks/python/apache_beam/io/gcp/gcsio.py:414 | Every input pair without a status is in the batch. |
| Seqs.Dedup | sdks/python/apache_beam/io/gcp/gcsio.py:414 | `set(src_dest_pairs)`: each pair once, only pairs of the input, and every input pair present. |
| GcsCopyBatch.RoundRequests | sdks/python/apache_beam/io/gcp/gcsio.py:421-422 | The batch sends each pending pair's current request, in batch order. |
| GcsCopyBatch.ApplyOne | sdks/python/apache_beam/io/gcp/gcsio.py:424-446 | A pending pair records its own sub-reply: the translated error, done, or the new token. Every other pair is left as it was. |
| GcsCopyBatch.ApplyReplies | sdks/python/apache_beam/io/gcp/gcsio.py:424-446 | Applying a round's replies never adds or drops a pair's request. |
| GcsCopyBatch.ApplyRepliesIsolated | sdks/python/apache_beam/io/gcp/gcsio.py:424-446 | Each answered pair is changed by its own sub-reply only. An error ends the pair with the translated error, done ends it as copied, and not done stores the token. Pairs without a reply, `zip` past the shortest list, keep their state. |
| GcsCopyBatch.Round | sdks/python/apache_beam/io/gcp/gcsio.py:414-446 | From a state with a request for every pair, a round leads to such a state again. |
| GcsCopyBatch.RoundIsolated | sdks/python/apache_beam/io/gcp/gcsio.py:414-446 | One round records each answered pending pair's reply and leaves every other pair untouched. Statuses already recorded are kept. |
| GcsCopyBatch.RoundOf | sdks/python/apache_beam/io/gcp/gcsio.py:413-446 | The round can run from every state that has a request for every pair, and it leads to such a state again: no pair ever loses its request. |
| GcsCopyBatch.After | sdks/python/apache_beam/io/gcp/gcsio.py:413-446 | After any number of rounds, every pair still has its request. |
| GcsCopyBatch.RoundsRun | sdks/python/apache_beam/io/gcp/gcsio.py:413-416 | No round runs from a state where every pair has a status. The loop stops at the first such state, or after `fuel` rounds. |
| GcsCopyBatch.CopyLoop | sdks/python/apache_beam/io/gcp/gcsio.py:413-446 | State `k` is the state after `k` rounds. A round runs only while some pair is pending, and the loop is left exactly when every pair has a status. Otherwise it stops after `fuel` rounds. |
| GcsCopyBatch.RoundOfKeepsStatuses | sdks/python/apache_beam/io/gcp/gcsio.py:414-446 | A round of `copy_batch` never changes or drops a recorded status. |
| GcsCopyBatch.StatusWriteOnce | sdks/python/apache_beam/io/gcp/gcsio.py:414-446 | For rounds that keep recorded statuses, a pair's status, once recorded, is in every later state, unchanged. |
| GcsCopyBatch.LoopNeverResends | sdks/python/apache_beam/io/gcp/gcsio.py:414 | A pair that has a status is in no later round's batch. |
| GcsCopyBatch.InitialRequests | sdks/python/apache_beam/io/gcp/gcsio.py:400-411 | `pair_to_request` exists if and only if every path parses, and each pair maps to its first rewrite request. Otherwise the error is that of the first pair whose paths do not parse. |
| GcsCopyBatch.FirstUnparsed | sdks/python/apache_beam/io/gcp/gcsio.py:401-403 | The position of the first pair whose source or destination does not parse: every pair before it parses, and that one does not. |
| GcsCopyBatch.Results | sdks/python/apache_beam/io/gcp/gcsio.py:448 | One `(src, dest, status)` per input pair, in input order. |
| GcsCopyBatch.CopyBatch | sdks/python/apache_beam/io/gcp/gcsio.py:376-448 | Empty input gives `[]`. A bad path raises the first bad pair's error before anything is sent. Otherwise the loop runs over the distinct pairs, starting from their first requests with no statuses. A finished run returns every input pair with its final status. A run stopped by the round bound still has a pair without a status. |
| GcsCopyBatch.CopyBatchEchoesInput | sdks/python/apache_beam/io/gcp/gcsio.py:394-396 | The result lists the input pairs in input order. Equal pairs get equal statuses, and no status is a raw 404. |
| GcsCopyBatch.RoundOfTranslates | sdks/python/apache_beam/io/gcp/gcsio.py:429-435 | A status recorded by a round of `copy_batch` is success or an error other than a 404. |
| GcsCopyBatch.StatusesTranslated | sdks/python/apache_beam/io/gcp/gcsio.py:429-435 | For such rounds, starting with no statuses, every status ever recorded is success or an error other than a 404. |
| GcsListing.NewFiles | sdks/python/apache_beam/io/gcp/gcsio.py:621-638 | A page yields the items whose names were not yielded before, each name once. Together with those already seen, they cover every name on the page, and each yielded entry is an item of the page. |
| GcsListing.FileNameParses | sdks/python/apache_beam/io/gcp/gcsio.py:622 | The name `gs://bucket/name` a listed object is yielded under parses back into its bucket and name. |
| GcsListing.EmptyTokenEndsListing | sdks/python/apache_beam/io/gcp/gcsio.py:640-643 | A page whose `nextPageToken` is missing or empty ends the listing: no further page is requested, and the call finishes. |
| GcsListing.ListPages | sdks/python/apache_beam/io/gcp/gcsio.py:615-644 | Each request after the first carries the previous page's non-empty `nextPageToken`. Names are unique and new. Every yielded file is on a fetched page, and every name on every fetched page was yielded. The loop finishes on a page without a next token and raises a page error unchanged. It stops at the page bound only when the last page fetched pointed to a next one. |
| GcsListing.ListFiles | sdks/python/apache_beam/io/gcp/gcsio.py:594-644 | A bad path raises before any call. The first request lists `bucket`/`prefix` with no token. The yielded names are distinct and exactly the names on the fetched pages. The listing finishes on a page with no next token, a page error is raised unchanged, and running out of the page bound means every page fetched pointed to a next one. |
| GcsTree.ToDictKeepsSizes | sdks/python/apache_beam/io/gcp/gcsio.py:588-590 | Names are unique, so no dictionary entry is overwritten: each yielded file maps to its own size. |
| GcsTree.ToDict | sdks/python/apache_beam/io/gcp/gcsio.py:588-590 | The dictionary's keys are exactly the yielded names. |
| GcsTree.ListPrefix | sdks/python/apache_beam/io/gcp/gcsio.py:574-592 | The dictionary exists exactly when the listing finished. Its keys are the yielded names, each mapped to its size. A listing that raises makes the call raise the same error. |
| GcsTree.RelPathStripsSource | sdks/python/apache_beam/io/gcp/gcsio.py:463 | `entry[len(src):]` drops as many characters as `src` has, and gives the empty string for a shorter entry. For an entry under `src`, `src` followed by it is the entry again. |
| GcsTree.TargetKeepsRelative | sdks/python/apache_beam/io/gcp/gcsio.py:462-464 | The target of entry `src + rel` is `dest + rel`. |
| GcsTree.TargetInjective | sdks/python/apache_beam/io/gcp/gcsio.py:462-464 | Two different entries under `src` never get the same target. |
| GcsTree.CopyEach | sdks/python/apache_beam/io/gcp/gcsio.py:462-464 | Entries are copied in listing order, each to its target. All copies but the last finished, and the run finishes exactly when every entry was copied. |
| GcsTree.CopyTree | sdks/python/apache_beam/io/gcp/gcsio.py:453-464 | An `AssertionError` is raised, before any listing, unless both paths end in `/`. When both do, `src` is always listed. A listing failure is raised before any copy. Copy `k` is of listed entry `k` to its target, and the first failing copy ends the run with its error. |
| GcsTree.CopyTreeTargetsDistinct | sdks/python/apache_beam/io/gcp/gcsio.py:453-464 | Every entry below `src` lands at the same relative path under `dest`, and no two copies share a target. |
| GcsProjectNumber.GetBucket | sdks/python/apache_beam/io/gcp/gcsio.py:200-206 | The bucket when the lookup succeeds, `None` on an `HttpError`. Any other error propagates. |
| GcsProjectNumber.GetProjectNumber | sdks/python/apache_beam/io/gcp/gcsio.py:183-190 | A remembered bucket is answered from the memo without a lookup. A found bucket is remembered, even with no project number, and a failed lookup is not. The memo only grows and never changes an entry. |
| GcsProjectNumber.ProjectNumberIdempotent | sdks/python/apache_beam/io/gcp/gcsio.py:184-190 | Once remembered, asking again returns the same answer, makes no lookup and leaves the memo unchanged. |
| GcsProjectNumber.FailedLookupRetried | sdks/python/apache_beam/io/gcp/gcsio.py:186-188 | A lookup answered by an `HttpError` returns `None` and is not remembered, so the next call looks again. |
| GcsProjectNumber.GetProjectNumbers | sdks/python/apache_beam/io/gcp/gcsio.py:183-190 | Over a run of calls, remembered buckets return their memo entry. Every number returned is in the final memo, and once a bucket has returned a number every later call for it returns the same one. |

## Left out

- The streaming halves of `GcsIO`: `open`, `GcsDownloader` (including the half-open to inclusive range conversion of `get_range`) and `GcsUploader`. They are byte buffering around the HTTP client.
- The retry decorators (`with_exponential_backoff`) and `BatchApiRequest`'s retry of server errors. Each decorated method (`delete`, `copy`) is modelled as one attempt. Each page request of `list_files`, whose call alone is wrapped in a retry, and each batch sub-reply are modelled as the one reply the service finally gives.
- GcsCopy.Copy: the decorator wraps the whole method, so a retry after a server error starts the rewrite again from a request without a token. The model covers one attempt, and `rename` and `copytree` inherit this.
- GcsDelete.DeleteBatch: the batch endpoint always returns a list of sub-replies. An exception raised by `BatchApiRequest.Execute` itself, which the source lets propagate after the earlier rounds were sent, is not modelled.
- GcsCopyBatch.CopyBatch: likewise, an exception raised by `Execute` in some round, which ends the call after the earlier rounds took effect, is not modelled.
- HTTP, credentials, the batch endpoint URL and the storage client's construction. The service is a parameter.
- Logging, the progress counters of `list_files`, timings and `_updated_to_seconds`.
- The `with_metadata` variant of `list_files` and `list_prefix`, which yields `(size, updated)` instead of the size.
- The test hook `_rewrite_cb`.
- The metadata accessors (`exists`, `checksum`, `size`, `kms_key`, `last_updated`, `_status`, `_gcs_object`), `get_bucket`'s siblings `create_bucket` and `bucket`-level helpers, and `default_gcs_bucket_name`.
- GcsPath.ParseGcsPath: the `ValueError` message appends the raw path where the source appends its `repr`; quoting and escaping are not modelled.
- GcsCopyBatch.CopyBatch: the batch order of pending pairs is their order of first occurrence in the input, where the source iterates a Python `set`, whose order is unspecified. Every per-pair property holds whatever the order. The source does not split `copy_batch` into groups of 100, although its documentation asks callers not to exceed that, so the model sends all pending pairs in one batch too.
- GcsCopy.Copy, GcsCopyBatch.CopyBatch, GcsListing.ListPages and GcsListing.ListFiles: the source loops for as long as the service keeps answering "not done", keeps leaving pairs unanswered, or keeps returning a next-page token. The model stops after `fuel` calls, rounds or pages with `OutOfFuel`, and says nothing about what happens after that.
- GcsTree.CopyTree: the `i`-th copy talks to its own service function `rewrite(i)`. Interleaving between copies is not modelled beyond that.
- GcsDelete.DeleteBatchOnePerPath and GcsDelete.DeleteBatchFinishesIffWellFormed: proved for services that answer each batch with exactly one sub-reply per request. For other services, `DeleteRoundsShortBeforeLast`, `DeleteRoundsIndexError` and `DeleteRoundsEntryCount` state what happens: fewer replies give fewer entries, and more replies raise `IndexError`.

=== FILE: copy.dfy ===
/** `GcsIO.copy` and `GcsIO.rename`: one server-side rewrite, re-issued with
    the continuation token of each reply until the service reports it done. */
module GcsCopy {
  import opened Wrappers
  import opened Errors
  import opened GcsPath
  import opened Seqs
  import GcsDelete

  /** `StorageObjectsRewriteRequest`; `rewriteToken` is unset on the first call. */
  datatype RewriteRequest = RewriteRequest(
    sourceBucket: string,
    sourceObject: string,
    destinationBucket: string,
    destinationObject: string,
    destinationKmsKeyName: Option<string>,
    maxBytesRewrittenPerCall: Option<int>,
    rewriteToken: Option<string>)

  /** `RewriteResponse`: whether the copy is complete, the token to resume it,
      and progress counters (only logged by the source). */
  datatype RewriteResponse = RewriteResponse(
    done: bool,
    rewriteToken: Option<string>,
    totalBytesRewritten: int,
    objectSize: int)

  /** The storage service answering `objects.Rewrite`: the reply to the
      `call`-th request of one copy (counted from 0). */
  type RewriteServer = (nat, RewriteRequest) -> CallResult<RewriteResponse>

  /** The first request for copying `src` to `dest`, or the parser's error
      (the source path is parsed first). */
  function RewriteRequestFor(src: string, dest: string, kmsKey: Option<string>, maxBytes: Option<int>)
    : (r: Result<RewriteRequest, Error>)
    ensures r.Success? ==> r.value.rewriteToken.None?
    ensures r.Success? <==> ParseGcsPath(src, false).Success? && ParseGcsPath(dest, false).Success?
    ensures r.Success? ==>
      && ParseGcsPath(src, false).value == (r.value.sourceBucket, r.value.sourceObject)
      && ParseGcsPath(dest, false).value == (r.value.destinationBucket, r.value.destinationObject)
      && r.value.destinationKmsKeyName == kmsKey
      && r.value.maxBytesRewrittenPerCall == maxBytes
    ensures ParseGcsPath(src, false).Failure? ==> r == Failure(ParseGcsPath(src, false).error)
    ensures ParseGcsPath(src, false).Success? && ParseGcsPath(dest, false).Failure? ==>
      r == Failure(ParseGcsPath(dest, false).error)
  {
    var s :- ParseGcsPath(src, false);
    var d :- ParseGcsPath(dest, false);
    Success(RewriteRequest(s.0, s.1, d.0, d.1, kmsKey, maxBytes, None))
  }

  /** A reply that lets the loop go on: a response that is not done. */
  predicate Continues(call: CallResult<RewriteResponse>) {
    call.CallOk? && !call.response.done
  }

  /** `next` is `previous` carrying the token of the reply to `previous`. */
  predicate Threads(previous: RewriteRequest, reply: CallResult<RewriteResponse>, next: RewriteRequest) {
    Continues(reply) && next == previous.(rewriteToken := reply.response.rewriteToken)
  }

  /** The `k`-th request of `sent` threads the reply to the one before it;
      the first of `sent` was call number `call`. */
  predicate ThreadedAt(sent: seq<RewriteRequest>, call: nat, server: RewriteServer, k: nat)
    requires 0 < k < |sent|
  {
    Threads(sent[k - 1], server(call + k - 1, sent[k - 1]), sent[k])
  }

  /** The requests one copy sent, in order, and how it ended. */
  datatype CopyRun = CopyRun(sent: seq<RewriteRequest>, outcome: Run<()>)

  /** The rewrite loop from `request` on, as call number `call`, making at
      most `fuel` more calls. */
  function RewriteLoop(request: RewriteRequest, call: nat, server: RewriteServer, fuel: nat): (r: CopyRun)
    ensures |r.sent| <= fuel
    ensures fuel > 0 ==> |r.sent| > 0 && r.sent[0] == request
    ensures forall k :: 0 <= k < |r.sent| ==> r.sent[k] == request.(rewriteToken := r.sent[k].rewriteToken)
    ensures forall k :: 0 < k < |r.sent| ==> ThreadedAt(r.sent, call, server, k)
    ensures r.outcome.Finished? ==>
      |r.sent| > 0 && server(call + |r.sent| - 1, Last(r.sent)).CallOk? &&
      server(call + |r.sent| - 1, Last(r.sent)).response.done
    ensures r.outcome.Raised? ==>
      |r.sent| > 0 && server(call + |r.sent| - 1, Last(r.sent)) == CallError(r.outcome.error)
    ensures r.outcome.OutOfFuel? ==>
      |r.sent| == fuel && (fuel > 0 ==> Continues(server(call + |r.sent| - 1, Last(r.sent))))
    decreases fuel
  {
    if fuel == 0 then CopyRun([], OutOfFuel)
    else
      match server(call, request)
      case CallError(e) => CopyRun([request], Raised(e))
      case CallOk(response) =>
        if response.done then CopyRun([request], Finished(()))
        else
          var rest := RewriteLoop(request.(rewriteToken := response.rewriteToken), call + 1, server, fuel - 1);
          var sent := [request] + rest.sent;
          assert forall k :: 0 < k < |sent| ==> sent[k] == rest.sent[k - 1];
          assert |rest.sent| > 0 ==> Last(sent) == Last(rest.sent);
          assert forall k :: 0 < k < |sent| ==> ThreadedAt(sent, call, server, k) by {
            forall k | 0 < k < |sent|
              ensures ThreadedAt(sent, call, server, k)
            {
              if k > 1 {
                assert ThreadedAt(rest.sent, call + 1, server, k - 1);
                assert sent[k - 1] == rest.sent[k - 2];
              }
            }
          }
          CopyRun(sent, rest.outcome)
  }

  /** `copy(src, dest, dest_kms_key_name, max_bytes_rewritten_per_call)`,
      bounded to `fuel` rewrite calls. The first request carries no token,
      every later one carries the token of the reply just before it and is
      otherwise unchanged, every reply but the last is "not done", and the
      copy ends at the first reply that is done or is an error. A 404 is
      raised unchanged here: only `copy_batch` translates it. */
  function Copy(src: string, dest: string, kmsKey: Option<string>, maxBytes: Option<int>,
                server: RewriteServer, fuel: nat): (r: CopyRun)
    ensures RewriteRequestFor(src, dest, kmsKey, maxBytes).Failure? ==>
      r == CopyRun([], Raised(RewriteRequestFor(src, dest, kmsKey, maxBytes).error))
    ensures RewriteRequestFor(src, dest, kmsKey, maxBytes).Success? && fuel > 0 ==>
      |r.sent| > 0 && r.sent[0] == RewriteRequestFor(src, dest, kmsKey, maxBytes).value
    ensures forall k :: 0 <= k < |r.sent| ==>
      r.sent[k] == r.sent[0].(rewriteToken := r.sent[k].rewriteToken)
    ensures |r.sent| > 0 ==> r.sent[0].rewriteToken.None?
    ensures forall k :: 0 < k < |r.sent| ==> ThreadedAt(r.sent, 0, server, k)
    ensures r.outcome.Finished? ==>
      |r.sent| > 0 && server(|r.sent| - 1, Last(r.sent)).CallOk? && server(|r.sent| - 1, Last(r.sent)).response.done
    ensures r.outcome.Raised? && |r.sent| > 0 ==>
      server(|r.sent| - 1, Last(r.sent)) == CallError(r.outcome.error)
    ensures r.outcome.OutOfFuel? ==>
      |r.sent| == fuel && (fuel > 0 ==> Continues(server(|r.sent| - 1, Last(r.sent))))
    ensures |r.sent| <= fuel
  {
    match RewriteRequestFor(src, dest, kmsKey, maxBytes)
    case Failure(e) => CopyRun([], Raised(e))
    case Success(request) => RewriteLoop(request, 0, server, fuel)
  }

  /** The number of calls is one more than the position of the first reply
      that is done: no reply before it was done, and it was. */
  lemma CopyStopsAtFirstDone(src: string, dest: string, kmsKey: Option<string>, maxBytes: Option<int>,
                             server: RewriteServer, fuel: nat)
    requires Copy(src, dest, kmsKey, maxBytes, server, fuel).outcome.Finished?
    ensures var r := Copy(src, dest, kmsKey, maxBytes, server, fuel);
      && |r.sent| > 0
      && (forall k :: 0 <= k < |r.sent| - 1 ==> !(server(k, r.sent[k]).CallOk? && server(k, r.sent[k]).response.done))
      && server(|r.sent| - 1, r.sent[|r.sent| - 1]).CallOk?
      && server(|r.sent| - 1, r.sent[|r.sent| - 1]).response.done
  {
    var r := Copy(src, dest, kmsKey, maxBytes, server, fuel);
    forall k | 0 <= k < |r.sent| - 1
      ensures !(server(k, r.sent[k]).CallOk? && server(k, r.sent[k]).response.done)
    {
      assert ThreadedAt(r.sent, 0, server, k + 1);
    }
  }

  /** The three-reply exchange of a copy that needs two continuations: the
      calls carry no token, then `T1`, then `T2`, and the copy completes. */
  lemma CopyThreadsTwoTokens(src: string, dest: string, fuel: nat)
    requires RewriteRequestFor(src, dest, None, None).Success?
    requires fuel >= 3
    ensures var server := (call: nat, request: RewriteRequest) =>
        if call == 0 then CallOk(RewriteResponse(false, Some("T1"), 0, 0))
        else if call == 1 then CallOk(RewriteResponse(false, Some("T2"), 0, 0))
        else CallOk(RewriteResponse(true, None, 0, 0));
      var r := Copy(src, dest, None, None, server, fuel);
      && r.outcome == Finished(())
      && |r.sent| == 3
      && r.sent[0].rewriteToken == None
      && r.sent[1].rewriteToken == Some("T1")
      && r.sent[2].rewriteToken == Some("T2")
  {
    var server := (call: nat, request: RewriteRequest) =>
      if call == 0 then CallOk(RewriteResponse(false, Some("T1"), 0, 0))
      else if call == 1 then CallOk(RewriteResponse(false, Some("T2"), 0, 0))
      else CallOk(RewriteResponse(true, None, 0, 0));
    var request := RewriteRequestFor(src, dest, None, None).value;
    var r2 := RewriteLoop(request.(rewriteToken := Some("T2")), 2, server, fuel - 2);
    assert r2 == CopyRun([request.(rewriteToken := Some("T2"))], Finished(()));
    var r1 := RewriteLoop(request.(rewriteToken := Some("T1")), 1, server, fuel - 1);
    assert r1.sent == [request.(rewriteToken := Some("T1"))] + r2.sent;
  }

  /** What `rename` did: the copy, and the delete when one was issued. */
  datatype RenameRun = RenameRun(copy: CopyRun, deleted: Option<Result<(), Error>>, outcome: Run<()>)

  /** `rename(src, dest)`: copy, then delete the source. Not atomic: the
      delete is issued only after a finished copy, and when that delete
      fails its error is raised although the copy already took effect. */
  function Rename(src: string, dest: string, rewrite: RewriteServer, delete: GcsDelete.DeleteServer, fuel: nat)
    : (r: RenameRun)
    ensures r.copy == Copy(src, dest, None, None, rewrite, fuel)
    ensures r.deleted.Some? <==> r.copy.outcome.Finished?
    ensures !r.copy.outcome.Finished? ==> r.outcome == r.copy.outcome
    ensures r.deleted.Some? ==> r.deleted.value == GcsDelete.Delete(src, delete)
    ensures r.outcome.Finished? <==> r.copy.outcome.Finished? && r.deleted.value.Success?
    ensures r.copy.outcome.Finished? && r.deleted.value.Failure? ==> r.outcome == Raised(r.deleted.value.error)
  {
    var copied := Copy(src, dest, None, None, rewrite, fuel);
    if !copied.outcome.Finished? then RenameRun(copied, None, copied.outcome)
    else
      var deleted := GcsDelete.Delete(src, delete);
      RenameRun(copied, Some(deleted), if deleted.Success? then Finished(()) else Raised(deleted.error))
  }
}

=== FILE: copy_batch.dfy ===
/** `GcsIO.copy_batch`: many rewrites driven to completion together. Each
    round sends one batch holding a rewrite for every distinct pair that has
    no status yet; each sub-reply either ends its pair (an error, or done) or
    stores the pair's new continuation token. All pending pairs go into one
    batch: the source does not split this operation into groups of 100. */
module GcsCopyBatch {
  import opened Wrappers
  import opened Errors
  import opened Seqs
  import opened GcsCopy

  /** A `(src, dest)` pair of `gs://` paths. */
  type Pair = (string, string)

  /** The batch endpoint answering one round of rewrites. */
  type RewriteBatchServer = (nat, seq<RewriteRequest>) -> seq<CallResult<RewriteResponse>>

  /** `GcsIOError(errno.ENOENT, 'Source file not found: <src>')`. */
  function SourceNotFound(src: string): Error {
    GcsIOError(ENOENT, "Source file not found: " + src)
  }

  /** The status a failed rewrite of a pair records: a 404 becomes the
      connector's "source not found" error, any other error is kept. */
  function CopyError(src: string, e: Error): (r: Error)
    ensures !IsNotFound(r)
    ensures IsNotFound(e) ==> r == SourceNotFound(src)
    ensures !IsNotFound(e) ==> r == e
  {
    if IsNotFound(e) then SourceNotFound(src) else e
  }

  /** `pair_to_request` and `pair_to_status`: the current request of every
      pair, and the recorded outcome of those that ended (`None` = copied). */
  datatype BatchState = BatchState(requests: map<Pair, RewriteRequest>, status: map<Pair, Option<Error>>)

  /** Every pair of the input has a request. */
  predicate Tracks(distinct: seq<Pair>, st: BatchState) {
    forall i :: 0 <= i < |distinct| ==> distinct[i] in st.requests
  }

  /** Every pair of `distinct` has a status. */
  predicate AllDone(distinct: seq<Pair>, status: map<Pair, Option<Error>>) {
    forall i :: 0 <= i < |distinct| ==> distinct[i] in status
  }

  /** The pairs of `distinct` without a status, in their order there. */
  function Pending(distinct: seq<Pair>, status: map<Pair, Option<Error>>): (batch: seq<Pair>)
    ensures forall i :: 0 <= i < |batch| ==> batch[i] in distinct && batch[i] !in status
    ensures NoDup(distinct) ==> NoDup(batch)
    ensures batch == [] <==> AllDone(distinct, status)
    decreases |distinct|
  {
    if distinct == [] then []
    else
      var rest := Pending(distinct[1..], status);
      if distinct[0] in status then rest
      else
        assert forall i :: 0 <= i < |rest| ==> rest[i] in distinct[1..];
        [distinct[0]] + rest
  }

  /** Every pair of `distinct` without a status is in the batch. */
  lemma {:induction false} PendingComplete(distinct: seq<Pair>, status: map<Pair, Option<Error>>, i: nat)
    requires i < |distinct| && distinct[i] !in status
    ensures distinct[i] in Pending(distinct, status)
    decreases |distinct|
  {
    if i > 0 {
      PendingComplete(distinct[1..], status, i - 1);
    }
  }

  /** The requests of one round, in batch order. */
  function RoundRequests(batch: seq<Pair>, st: BatchState): (reqs: seq<RewriteRequest>)
    requires forall i :: 0 <= i < |batch| ==> batch[i] in st.requests
    ensures |reqs| == |batch|
    ensures forall i :: 0 <= i < |batch| ==> reqs[i] == st.requests[batch[i]]
  {
    seq(|batch|, i requires 0 <= i < |batch| => st.requests[batch[i]])
  }

  /** The effect of one sub-reply on its pair: a pair still pending records
      the reply, and every other pair is left as it was. */
  function ApplyOne(pair: Pair, call: CallResult<RewriteResponse>, st: BatchState): (st': BatchState)
    requires pair in st.requests
    ensures pair !in st.status ==> RecordsReply(st, st', pair, call)
    ensures forall p :: p != pair ==> SameAt(st', st, p)
  {
    match call
    case CallError(e) => st.(status := st.status[pair := Some(CopyError(pair.0, e))])
    case CallOk(response) =>
      if !response.done then
        st.(requests := st.requests[pair := st.requests[pair].(rewriteToken := response.rewriteToken)])
      else st.(status := st.status[pair := None])
  }

  /** The replies of one round applied to the pairs they answer; `zip` stops
      at the shorter of the two lists, so an unanswered pair stays pending. */
  function ApplyReplies(batch: seq<Pair>, calls: seq<CallResult<RewriteResponse>>, st: BatchState)
    : (st': BatchState)
    requires forall i :: 0 <= i < |batch| ==> batch[i] in st.requests
    ensures st'.requests.Keys == st.requests.Keys
    decreases |batch|
  {
    if batch == [] || calls == [] then st
    else ApplyReplies(batch[1..], calls[1..], ApplyOne(batch[0], calls[0], st))
  }

  /** `a` and `b` agree on the request and status of `p`. */
  predicate SameAt(a: BatchState, b: BatchState, p: Pair) {
    && (p in a.requests <==> p in b.requests)
    && (p in a.requests ==> a.requests[p] == b.requests[p])
    && (p in a.status <==> p in b.status)
    && (p in a.status ==> a.status[p] == b.status[p])
  }

  /** How the reply `call` leaves the pair `p` in `st'`, starting from `st`:
      an error ends it with the translated error, "done" ends it as copied,
      and "not done" keeps it pending with the reply's token. */
  predicate RecordsReply(st: BatchState, st': BatchState, p: Pair, call: CallResult<RewriteResponse>)
    requires p in st.requests
  {
    match call
    case CallError(e) =>
      p in st'.status && st'.status[p] == Some(CopyError(p.0, e)) &&
      p in st'.requests && st'.requests[p] == st.requests[p]
    case CallOk(response) =>
      if response.done then
        p in st'.status && st'.status[p] == None &&
        p in st'.requests && st'.requests[p] == st.requests[p]
      else
        p !in st'.status && p in st'.requests &&
        st'.requests[p] == st.requests[p].(rewriteToken := response.rewriteToken)
  }

  /** One round touches only the pairs that got a reply, and each of those
      only according to its own reply: one pair's failure never changes
      another pair's state. */
  lemma {:induction false} ApplyRepliesIsolated(batch: seq<Pair>, calls: seq<CallResult<RewriteResponse>>, st: BatchState)
    requires forall i :: 0 <= i < |batch| ==> batch[i] in st.requests && batch[i] !in st.status
    requires NoDup(batch)
    ensures forall i :: 0 <= i < |batch| && i < |calls| ==>
      RecordsReply(st, ApplyReplies(batch, calls, st), batch[i], calls[i])
    ensures forall p :: p !in batch[..Min(|batch|, |calls|)] ==> SameAt(ApplyReplies(batch, calls, st), st, p)
    decreases |batch|
  {
    ApplyRepliesUntouched(batch, calls, st);
    if batch != [] && calls != [] {
      var st1 := ApplyOne(batch[0], calls[0], st);
      var st' := ApplyReplies(batch[1..], calls[1..], st1);
      assert forall i :: 1 <= i < |batch| ==> batch[1..][i - 1] == batch[i] && batch[i] != batch[0];
      ApplyRepliesIsolated(batch[1..], calls[1..], st1);
      ApplyRepliesUntouched(batch[1..], calls[1..], st1);
      assert batch[0] !in batch[1..][..Min(|batch| - 1, |calls| - 1)];
      RecordsReplyKept(st, st1, st', batch[0], calls[0]);
      forall i | 1 <= i < |batch| && i < |calls|
        ensures RecordsReply(st, st', batch[i], calls[i])
      {
        assert RecordsReply(st1, st', batch[1..][i - 1], calls[1..][i - 1]);
        RecordsReplyFrom(st, st1, st', batch[i], calls[i]);
      }
    }
  }

  /** Pairs without a reply in this round keep their request and status. */
  lemma {:induction false} ApplyRepliesUntouched(batch: seq<Pair>, calls: seq<CallResult<RewriteResponse>>, st: BatchState)
    requires forall i :: 0 <= i < |batch| ==> batch[i] in st.requests
    ensures forall p :: p !in batch[..Min(|batch|, |calls|)] ==> SameAt(ApplyReplies(batch, calls, st), st, p)
    decreases |batch|
  {
    if batch != [] && calls != [] {
      var st1 := ApplyOne(batch[0], calls[0], st);
      ApplyRepliesUntouched(batch[1..], calls[1..], st1);
      assert batch[..Min(|batch|, |calls|)] == [batch[0]] + batch[1..][..Min(|batch| - 1, |calls| - 1)];
    }
  }

  /** A recorded reply survives later steps that leave the pair alone. */
  lemma RecordsReplyKept(st: BatchState, st1: BatchState, st': BatchState, p: Pair, call: CallResult<RewriteResponse>)
    requires p in st.requests
    requires RecordsReply(st, st1, p, call)
    requires SameAt(st', st1, p)
    ensures RecordsReply(st, st', p, call)
  {
  }

  /** Earlier steps that leave the pair alone do not change what its reply records. */
  lemma RecordsReplyFrom(st: BatchState, st1: BatchState, st': BatchState, p: Pair, call: CallResult<RewriteResponse>)
    requires p in st.requests && p in st1.requests
    requires SameAt(st1, st, p)
    requires RecordsReply(st1, st', p, call)
    ensures RecordsReply(st, st', p, call)
  {
  }

  /** One round: send every pending pair and apply the replies. */
  function Round(distinct: seq<Pair>, st: BatchState, round: nat, server: RewriteBatchServer): (st': BatchState)
    requires Tracks(distinct, st)
    ensures Tracks(distinct, st')
  {
    var batch := Pending(distinct, st.status);
    ApplyReplies(batch, server(round, RoundRequests(batch, st)), st)
  }

  /** What one round does to the state, given the round's number. */
  type RoundFn = (nat, BatchState) --> BatchState

  /** `step` can run from every state that holds a request for every pair,
      and leads to such a state again. */
  ghost predicate KeepsTracks(distinct: seq<Pair>, step: RoundFn) {
    forall rd: nat, s: BatchState :: Tracks(distinct, s) ==> step.requires(rd, s) && Tracks(distinct, step(rd, s))
  }

  /** The round `copy_batch` runs against `server`. */
  function RoundOf(distinct: seq<Pair>, server: RewriteBatchServer): (step: RoundFn)
    ensures KeepsTracks(distinct, step)
  {
    (rd: nat, s: BatchState) requires Tracks(distinct, s) => Round(distinct, s, rd, server)
  }

  /** The state after `n` rounds of `step` from `st`, rounds being numbered
      from `round`. */
  function After(distinct: seq<Pair>, step: RoundFn, st: BatchState, round: nat, n: nat): (s: BatchState)
    requires KeepsTracks(distinct, step) && Tracks(distinct, st)
    ensures Tracks(distinct, s)
    decreases n
  {
    if n == 0 then st else step(round + n - 1, After(distinct, step, st, round, n - 1))
  }

  /** How many rounds the loop runs, given that the first `n` left a pair
      pending: it stops at the first state where every pair has a status,
      and after `fuel` rounds at the latest. */
  function RoundsRun(distinct: seq<Pair>, step: RoundFn, st: BatchState, round: nat, fuel: nat, n: nat): (r: nat)
    requires KeepsTracks(distinct, step) && Tracks(distinct, st)
    requires n <= fuel
    ensures n <= r <= fuel
    ensures forall i :: n <= i < r ==> !AllDone(distinct, After(distinct, step, st, round, i).status)
    ensures r < fuel ==> AllDone(distinct, After(distinct, step, st, round, r).status)
    decreases fuel - n
  {
    if AllDone(distinct, After(distinct, step, st, round, n).status) || n == fuel then n
    else RoundsRun(distinct, step, st, round, fuel, n + 1)
  }

  /** The states of the `copy_batch` loop before each round and after the
      last, and whether it left the loop (rather than reaching `fuel`). */
  datatype LoopRun = LoopRun(states: seq<BatchState>, finished: bool)

  /** The `while True` loop of `copy_batch` from state `st`, numbering rounds
      from `round`, running at most `fuel` rounds of `step`: state `k` is the
      state after `k` rounds, a round runs exactly while some pair is
      pending, and the loop is left exactly when every pair has a status. */
  function CopyLoop(distinct: seq<Pair>, step: RoundFn, st: BatchState, round: nat, fuel: nat)
    : (r: LoopRun)
    requires KeepsTracks(distinct, step) && Tracks(distinct, st)
    ensures 0 < |r.states| <= fuel + 1 && r.states[0] == st
    ensures forall k :: 0 <= k < |r.states| ==> r.states[k] == After(distinct, step, st, round, k)
    ensures forall k :: 0 <= k < |r.states| - 1 ==> !AllDone(distinct, r.states[k].status)
    ensures r.finished <==> AllDone(distinct, Last(r.states).status)
    ensures !r.finished ==> |r.states| == fuel + 1
  {
    var n := RoundsRun(distinct, step, st, round, fuel, 0);
    var states := seq(n + 1, k requires 0 <= k <= n => After(distinct, step, st, round, k));
    LoopRun(states, AllDone(distinct, Last(states).status))
  }

  /** Every status in `a` is in `b`, unchanged. */
  ghost predicate SubStatus(a: map<Pair, Option<Error>>, b: map<Pair, Option<Error>>) {
    forall p :: p in a ==> p in b && b[p] == a[p]
  }

  /** A round sends exactly the pending pairs, applies each reply to its own
      pair only, and leaves every recorded status as it was. */
  lemma RoundIsolated(distinct: seq<Pair>, st: BatchState, round: nat, server: RewriteBatchServer)
    requires Tracks(distinct, st)
    requires NoDup(distinct)
    ensures var batch := Pending(distinct, st.status);
      var calls := server(round, RoundRequests(batch, st));
      var st' := Round(distinct, st, round, server);
      && (forall i :: 0 <= i < |batch| && i < |calls| ==> RecordsReply(st, st', batch[i], calls[i]))
      && (forall p :: p !in batch[..Min(|batch|, |calls|)] ==> SameAt(st', st, p))
      && SubStatus(st.status, st'.status)
  {
    var batch := Pending(distinct, st.status);
    var calls := server(round, RoundRequests(batch, st));
    ApplyRepliesIsolated(batch, calls, st);
    forall p | p in st.status
      ensures p !in batch[..Min(|batch|, |calls|)]
    {
      assert p !in batch;
    }
  }

  /** A round leaves every recorded status as it was. */
  lemma RoundKeepsStatuses(distinct: seq<Pair>, st: BatchState, round: nat, server: RewriteBatchServer)
    requires Tracks(distinct, st)
    ensures SubStatus(st.status, Round(distinct, st, round, server).status)
  {
    var batch := Pending(distinct, st.status);
    var calls := server(round, RoundRequests(batch, st));
    ApplyRepliesUntouched(batch, calls, st);
    forall p | p in st.status
      ensures p !in batch[..Min(|batch|, |calls|)]
    {
      assert p !in batch;
    }
  }

  /** `step` leaves every recorded status as it was. */
  ghost predicate KeepsStatuses(distinct: seq<Pair>, step: RoundFn)
    requires KeepsTracks(distinct, step)
  {
    forall rd: nat, s: BatchState :: Tracks(distinct, s) ==> SubStatus(s.status, step(rd, s).status)
  }

  /** The rounds of `copy_batch` leave every recorded status as it was. */
  lemma RoundOfKeepsStatuses(distinct: seq<Pair>, server: RewriteBatchServer)
    ensures KeepsStatuses(distinct, RoundOf(distinct, server))
  {
    forall rd: nat, s: BatchState | Tracks(distinct, s)
      ensures SubStatus(s.status, RoundOf(distinct, server)(rd, s).status)
    {
      RoundKeepsStatuses(distinct, s, rd, server);
    }
  }

  /** Statuses are written once: a state after more rounds keeps every
      status a state after fewer rounds recorded. */
  lemma {:induction false} StatusWriteOnce(distinct: seq<Pair>, step: RoundFn, st: BatchState, round: nat, k: nat, l: nat)
    requires KeepsTracks(distinct, step) && KeepsStatuses(distinct, step) && Tracks(distinct, st)
    requires k <= l
    ensures SubStatus(After(distinct, step, st, round, k).status, After(distinct, step, st, round, l).status)
    decreases l
  {
    if k < l {
      var before := After(distinct, step, st, round, l - 1);
      StatusWriteOnce(distinct, step, st, round, k, l - 1);
      assert SubStatus(before.status, step(round + l - 1, before).status);
      SubStatusTransitive(After(distinct, step, st, round, k).status, before.status,
                          After(distinct, step, st, round, l).status);
    }
  }

  lemma SubStatusTransitive(a: map<Pair, Option<Error>>, b: map<Pair, Option<Error>>, c: map<Pair, Option<Error>>)
    requires SubStatus(a, b) && SubStatus(b, c)
    ensures SubStatus(a, c)
  {
  }

  /** A pair with a recorded status is never sent again: it is in none of
      the later rounds' batches. */
  lemma LoopNeverResends(distinct: seq<Pair>, st: BatchState, round: nat,
                         server: RewriteBatchServer, fuel: nat, k: nat, l: nat, p: Pair)
    requires Tracks(distinct, st)
    requires k <= l < |CopyLoop(distinct, RoundOf(distinct, server), st, round, fuel).states|
    requires p in CopyLoop(distinct, RoundOf(distinct, server), st, round, fuel).states[k].status
    ensures p !in Pending(distinct, CopyLoop(distinct, RoundOf(distinct, server), st, round, fuel).states[l].status)
  {
    RoundOfKeepsStatuses(distinct, server);
    StatusWriteOnce(distinct, RoundOf(distinct, server), st, round, k, l);
  }

  /** The position of the first pair whose paths do not parse, or `|pairs|`
      when they all do. */
  function FirstUnparsed(pairs: seq<Pair>, kmsKey: Option<string>, maxBytes: Option<int>): (i: nat)
    ensures i <= |pairs|
    ensures i < |pairs| ==> RewriteRequestFor(pairs[i].0, pairs[i].1, kmsKey, maxBytes).Failure?
    ensures forall j :: 0 <= j < i ==> RewriteRequestFor(pairs[j].0, pairs[j].1, kmsKey, maxBytes).Success?
    decreases |pairs|
  {
    if pairs == [] || RewriteRequestFor(pairs[0].0, pairs[0].1, kmsKey, maxBytes).Failure? then 0
    else
      assert forall j :: 1 <= j < |pairs| ==> pairs[j] == pairs[1..][j - 1];
      1 + FirstUnparsed(pairs[1..], kmsKey, maxBytes)
  }

  /** `pair_to_request` as first built: the first request of every pair, or
      the error of the first pair that does not parse. */
  function InitialRequests(pairs: seq<Pair>, kmsKey: Option<string>, maxBytes: Option<int>)
    : (r: Result<map<Pair, RewriteRequest>, Error>)
    ensures r.Success? <==> forall i :: 0 <= i < |pairs| ==> RewriteRequestFor(pairs[i].0, pairs[i].1, kmsKey, maxBytes).Success?
    ensures r.Success? ==> forall i :: 0 <= i < |pairs| ==>
      pairs[i] in r.value && Success(r.value[pairs[i]]) == RewriteRequestFor(pairs[i].0, pairs[i].1, kmsKey, maxBytes)
    ensures r.Failure? ==>
      var i := FirstUnparsed(pairs, kmsKey, maxBytes);
      i < |pairs| && RewriteRequestFor(pairs[i].0, pairs[i].1, kmsKey, maxBytes) == Failure(r.error)
    decreases |pairs|
  {
    if pairs == [] then Success(map[])
    else
      var first :- RewriteRequestFor(pairs[0].0, pairs[0].1, kmsKey, maxBytes);
      var rest :- InitialRequests(pairs[1..], kmsKey, maxBytes);
      var m := rest[pairs[0] := first];
      assert forall i :: 1 <= i < |pairs| ==> pairs[i] == pairs[1..][i - 1];
      assert forall i :: 0 <= i < |pairs| ==> pairs[i] in m && Success(m[pairs[i]]) == RewriteRequestFor(pairs[i].0, pairs[i].1, kmsKey, maxBytes) by {
        forall i | 0 <= i < |pairs|
          ensures pairs[i] in m && Success(m[pairs[i]]) == RewriteRequestFor(pairs[i].0, pairs[i].1, kmsKey, maxBytes)
        {
          if i > 0 && pairs[i] != pairs[0] {
            assert pairs[1..][i - 1] == pairs[i];
          }
        }
      }
      Success(m)
  }

  /** What `copy_batch` did: the loop states (before each round and after the
      last) and the `(src, dest, exception)` list or the raised error. */
  datatype CopyBatchRun = CopyBatchRun(states: seq<BatchState>, outcome: Run<seq<(string, string, Option<Error>)>>)

  /** The returned list: the input pairs, in order, each with its status. */
  function Results(pairs: seq<Pair>, status: map<Pair, Option<Error>>): (rs: seq<(string, string, Option<Error>)>)
    requires forall i :: 0 <= i < |pairs| ==> pairs[i] in status
    ensures |rs| == |pairs|
    ensures forall i :: 0 <= i < |pairs| ==> rs[i] == (pairs[i].0, pairs[i].1, status[pairs[i]])
  {
    seq(|pairs|, i requires 0 <= i < |pairs| => (pairs[i].0, pairs[i].1, status[pairs[i]]))
  }

  /** `copy_batch(src_dest_pairs, dest_kms_key_name, max_bytes_rewritten_per_call)`,
      bounded to `fuel` batch rounds. Every path is parsed before anything is
      sent. The loop runs over the distinct pairs, from a state where every
      pair has its first request and none has a status; the result echoes
      the input order, one entry per input pair, so equal pairs share one
      rewrite and one status. */
  function CopyBatch(pairs: seq<Pair>, kmsKey: Option<string>, maxBytes: Option<int>,
                     server: RewriteBatchServer, fuel: nat): (r: CopyBatchRun)
    ensures pairs == [] ==> r == CopyBatchRun([], Finished([]))
    ensures r.outcome.Raised? ==> r.states == []
    ensures r.outcome.Raised? ==>
      var i := FirstUnparsed(pairs, kmsKey, maxBytes);
      i < |pairs| && RewriteRequestFor(pairs[i].0, pairs[i].1, kmsKey, maxBytes) == Failure(r.outcome.error)
    ensures pairs != [] && InitialRequests(pairs, kmsKey, maxBytes).Success? ==>
      && |r.states| > 0
      && r.states[0] == BatchState(InitialRequests(pairs, kmsKey, maxBytes).value, map[])
      && Tracks(Dedup(pairs, {}), r.states[0])
      && r.states == CopyLoop(Dedup(pairs, {}), RoundOf(Dedup(pairs, {}), server), r.states[0], 0, fuel).states
    ensures r.outcome.Finished? ==> |r.outcome.value| == |pairs|
    ensures r.outcome.Finished? && pairs != [] ==>
      && |r.states| > 0
      && (forall i :: 0 <= i < |pairs| ==> pairs[i] in Last(r.states).status)
      && r.outcome.value == Results(pairs, Last(r.states).status)
    ensures r.outcome.OutOfFuel? ==>
      |r.states| == fuel + 1 && !AllDone(Dedup(pairs, {}), Last(r.states).status)
    ensures pairs != [] && InitialRequests(pairs, kmsKey, maxBytes).Failure? ==>
      r == CopyBatchRun([], Raised(InitialRequests(pairs, kmsKey, maxBytes).error))
  {
    if pairs == [] then CopyBatchRun([], Finished([]))
    else
      match InitialRequests(pairs, kmsKey, maxBytes)
      case Failure(e) => CopyBatchRun([], Raised(e))
      case Success(requests) =>
        var distinct := Dedup(pairs, {});
        var st := BatchState(requests, map[]);
        var run := CopyLoop(distinct, RoundOf(distinct, server), st, 0, fuel);
        if !run.finished then CopyBatchRun(run.states, OutOfFuel)
        else
          var final := Last(run.states).status;
          assert forall i :: 0 <= i < |pairs| ==> pairs[i] in distinct;
          CopyBatchRun(run.states, Finished(Results(pairs, final)))
  }

  /** The returned list has one `(src, dest, status)` per input pair in input
      order; equal pairs get equal statuses, and no status is a raw 404. */
  lemma CopyBatchEchoesInput(pairs: seq<Pair>, kmsKey: Option<string>, maxBytes: Option<int>,
                             server: RewriteBatchServer, fuel: nat)
    requires CopyBatch(pairs, kmsKey, maxBytes, server, fuel).outcome.Finished?
    ensures var rs := CopyBatch(pairs, kmsKey, maxBytes, server, fuel).outcome.value;
      && |rs| == |pairs|
      && (forall i :: 0 <= i < |pairs| ==> rs[i].0 == pairs[i].0 && rs[i].1 == pairs[i].1)
      && (forall i, j :: 0 <= i < |pairs| && 0 <= j < |pairs| && pairs[i] == pairs[j] ==> rs[i].2 == rs[j].2)
      && (forall i :: 0 <= i < |pairs| && rs[i].2.Some? ==> !IsNotFound(rs[i].2.value))
  {
    var r := CopyBatch(pairs, kmsKey, maxBytes, server, fuel);
    if pairs != [] {
      var distinct := Dedup(pairs, {});
      RoundOfKeepsStatuses(distinct, server);
      RoundOfTranslates(distinct, server);
      forall i | 0 <= i < |pairs| && r.outcome.value[i].2.Some?
        ensures !IsNotFound(r.outcome.value[i].2.value)
      {
        StatusesTranslated(distinct, RoundOf(distinct, server), r.states[0], 0, |r.states| - 1, pairs[i]);
      }
    }
  }

  /** Every status `step` records is success or an error other than a 404. */
  ghost predicate Translates(distinct: seq<Pair>, step: RoundFn)
    requires KeepsTracks(distinct, step)
  {
    forall rd: nat, s: BatchState, p: Pair :: Tracks(distinct, s) && p in step(rd, s).status ==>
      p in s.status || step(rd, s).status[p].None? || !IsNotFound(step(rd, s).status[p].value)
  }

  /** The rounds of `copy_batch` record no raw 404. */
  lemma RoundOfTranslates(distinct: seq<Pair>, server: RewriteBatchServer)
    ensures Translates(distinct, RoundOf(distinct, server))
  {
    forall rd: nat, s: BatchState, p: Pair | Tracks(distinct, s) && p in RoundOf(distinct, server)(rd, s).status
      ensures var st' := RoundOf(distinct, server)(rd, s);
        p in s.status || st'.status[p].None? || !IsNotFound(st'.status[p].value)
    {
      RoundRecordsTranslated(distinct, s, rd, server, p);
    }
  }

  /** Every status the rounds record, starting with none, is success or an
      error other than a 404. */
  lemma {:induction false} StatusesTranslated(distinct: seq<Pair>, step: RoundFn, st: BatchState, round: nat,
                                              l: nat, p: Pair)
    requires KeepsTracks(distinct, step) && KeepsStatuses(distinct, step) && Translates(distinct, step)
    requires Tracks(distinct, st) && st.status == map[]
    requires p in After(distinct, step, st, round, l).status
    ensures var status := After(distinct, step, st, round, l).status;
      status[p].None? || !IsNotFound(status[p].value)
    decreases l
  {
    if l > 0 {
      var before := After(distinct, step, st, round, l - 1);
      var after := After(distinct, step, st, round, l);
      assert after == step(round + l - 1, before);
      if p in before.status {
        assert SubStatus(before.status, after.status);
        StatusesTranslated(distinct, step, st, round, l - 1, p);
      }
    }
  }

  /** A status a round records is success or a translated error. */
  lemma RoundRecordsTranslated(distinct: seq<Pair>, st: BatchState, round: nat, server: RewriteBatchServer, p: Pair)
    requires Tracks(distinct, st)
    requires p in Round(distinct, st, round, server).status
    ensures var st' := Round(distinct, st, round, server);
      p in st.status || st'.status[p].None? || !IsNotFound(st'.status[p].value)
  {
    var batch := Pending(distinct, st.status);
    var calls := server(round, RoundRequests(batch, st));
    ApplyRepliesTranslated(batch, calls, st, p);
  }

  lemma {:induction false} ApplyRepliesTranslated(batch: seq<Pair>, calls: seq<CallResult<RewriteResponse>>, st: BatchState, p: Pair)
    requires forall i :: 0 <= i < |batch| ==> batch[i] in st.requests
    requires p in ApplyReplies(batch, calls, st).status
    ensures var st' := ApplyReplies(batch, calls, st);
      (p in st.status && st'.status[p] == st.status[p]) || st'.status[p].None? || !IsNotFound(st'.status[p].value)
    decreases |batch|
  {
    if batch != [] && calls != [] {
      var st1 := ApplyOne(batch[0], calls[0], st);
      ApplyRepliesTranslated(batch[1..], calls[1..], st1, p);
    }
  }
}

=== FILE: delete.dfy ===
/** `GcsIO.delete` and `GcsIO.delete_batch`: removing objects one at a time
    or in batched rounds of at most `MAX_BATCH_OPERATION_SIZE` requests. */
module GcsDelete {
  import opened Wrappers
  import opened Errors
  import opened GcsPath
  import opened Seqs

  /** Largest number of sub-requests in one batch round. */
  const MAX_BATCH_OPERATION_SIZE: nat := 100

  /** `StorageObjectsDeleteRequest(bucket, object)`. */
  datatype DeleteRequest = DeleteRequest(bucket: string, objectName: string)

  /** The storage service answering one `objects.Delete` call. */
  type DeleteServer = DeleteRequest -> CallResult<()>

  /** The batch endpoint: given the round number and the requests of that
      round, the sub-responses `BatchApiRequest.Execute` returns. */
  type DeleteBatchServer = (nat, seq<DeleteRequest>) -> seq<CallResult<()>>

  /** How a round turns one path into its request, or fails. */
  type RequestFor = string -> Result<DeleteRequest, Error>

  /** The request for one path, or the parser's `ValueError`. */
  function DeleteRequestFor(path: string): (r: Result<DeleteRequest, Error>)
    ensures r.Success? <==> ParseGcsPath(path, false).Success?
    ensures r.Success? ==> ParseGcsPath(path, false).value == (r.value.bucket, r.value.objectName)
    ensures r.Failure? ==> r.error == ValueError(PATH_FORM_MESSAGE + path)
  {
    var parts :- ParseGcsPath(path, false);
    Success(DeleteRequest(parts.0, parts.1))
  }

  /** The request for `gs://bucket/name` deletes exactly that object. */
  lemma DeleteRequestForJoin(bucket: string, name: string)
    requires Acceptable(bucket, name, false)
    ensures DeleteRequestFor(Join(bucket, name)) == Success(DeleteRequest(bucket, name))
  {
    ParseJoin(bucket, name, false);
  }

  /** A status that is success or an error other than a 404. */
  predicate NotFoundAbsorbed(status: Option<Error>) {
    status.None? || !IsNotFound(status.value)
  }

  /** The status a sub-response leaves in the batch result: `None` (success)
      for a reply and for a 404, otherwise the reported error unchanged. */
  function DeleteStatus(call: CallResult<()>): (s: Option<Error>)
    ensures NotFoundAbsorbed(s)
    ensures call.CallOk? ==> s.None?
    ensures call.CallError? ==> (s.None? <==> IsNotFound(call.error))
    ensures s.Some? ==> call == CallError(s.value)
  {
    match call
    case CallOk(_) => None
    case CallError(e) => if IsNotFound(e) then None else Some(e)
  }

  /** `delete(path)`: success when the object is gone, including when it was
      already missing; every other error is raised. */
  function Delete(path: string, server: DeleteServer): (r: Result<(), Error>)
    ensures DeleteRequestFor(path).Failure? ==>
      r == Failure(ValueError(PATH_FORM_MESSAGE + path))
    ensures DeleteRequestFor(path).Success? ==>
      (r.Success? <==> DeleteStatus(server(DeleteRequestFor(path).value)) == None)
    ensures DeleteRequestFor(path).Success? && r.Failure? ==>
      r.error == server(DeleteRequestFor(path).value).error
    ensures r.Failure? ==> !IsNotFound(r.error)
  {
    var request :- DeleteRequestFor(path);
    match server(request)
    case CallOk(_) => Success(())
    case CallError(e) => if IsNotFound(e) then Success(()) else Failure(e)
  }

  /** Deleting a missing object succeeds, so repeating a delete is harmless. */
  lemma DeleteMissingSucceeds(path: string, server: DeleteServer)
    requires DeleteRequestFor(path).Success?
    requires server(DeleteRequestFor(path).value).CallError?
    requires IsNotFound(server(DeleteRequestFor(path).value).error)
    ensures Delete(path, server) == Success(())
  {
  }

  /** The consecutive rounds `islice` cuts from the input: every round but
      the last holds exactly `MAX_BATCH_OPERATION_SIZE` paths. */
  function Chunks(paths: seq<string>): (cs: seq<seq<string>>)
    ensures |cs| == CeilDiv(|paths|, MAX_BATCH_OPERATION_SIZE)
    ensures forall k :: 0 <= k < |cs| ==> 0 < |cs[k]| <= MAX_BATCH_OPERATION_SIZE
    ensures forall k :: 0 <= k < |cs| - 1 ==> |cs[k]| == MAX_BATCH_OPERATION_SIZE
    ensures Flatten(cs) == paths
    decreases |paths|
  {
    if paths == [] then []
    else
      var n := Min(MAX_BATCH_OPERATION_SIZE, |paths|);
      var rest := Chunks(paths[n..]);
      var cs := [paths[..n]] + rest;
      assert cs[1..] == rest;
      assert paths[..n] + paths[n..] == paths;
      cs
  }

  /** Round `k` takes the slice of the input that starts at `100 * k`. */
  lemma {:induction false} ChunksAreConsecutive(paths: seq<string>, k: nat)
    requires k < |Chunks(paths)|
    ensures k * MAX_BATCH_OPERATION_SIZE < |paths|
    ensures Chunks(paths)[k] ==
      paths[k * MAX_BATCH_OPERATION_SIZE .. Min((k + 1) * MAX_BATCH_OPERATION_SIZE, |paths|)]
    decreases |paths|
  {
    var M := MAX_BATCH_OPERATION_SIZE;
    if k > 0 {
      ChunksTail(paths, k);
      var rest := paths[M..];
      ChunksAreConsecutive(rest, k - 1);
      MulSucc(k, M);
      SliceOfDrop(paths, M, (k - 1) * M, Min(k * M, |rest|));
    }
  }

  /** Every round after the first is a round of the input less its first
      `MAX_BATCH_OPERATION_SIZE` paths. */
  lemma ChunksTail(paths: seq<string>, k: nat)
    requires 0 < k < |Chunks(paths)|
    ensures MAX_BATCH_OPERATION_SIZE < |paths|
    ensures k - 1 < |Chunks(paths[MAX_BATCH_OPERATION_SIZE..])|
    ensures Chunks(paths)[k] == Chunks(paths[MAX_BATCH_OPERATION_SIZE..])[k - 1]
  {
    var n := Min(MAX_BATCH_OPERATION_SIZE, |paths|);
    assert Chunks(paths)[1..] == Chunks(paths[n..]);
  }

  lemma MulSucc(k: nat, m: nat)
    requires k > 0
    ensures (k - 1) * m + m == k * m && k * m + m == (k + 1) * m
  {
  }

  lemma SliceOfDrop<T>(s: seq<T>, d: nat, lo: nat, hi: nat)
    requires d <= |s| && lo <= hi <= |s| - d
    ensures s[d..][lo..hi] == s[d + lo..d + hi]
  {
  }

  /** The position of the first path `parse` rejects, or `|paths|` when it
      accepts them all. */
  function FirstRejected(paths: seq<string>, parse: RequestFor): (i: nat)
    ensures i <= |paths|
    ensures i < |paths| ==> parse(paths[i]).Failure?
    ensures forall j :: 0 <= j < i ==> parse(paths[j]).Success?
    decreases |paths|
  {
    if paths == [] || parse(paths[0]).Failure? then 0
    else
      assert forall j :: 1 <= j < |paths| ==> paths[j] == paths[1..][j - 1];
      1 + FirstRejected(paths[1..], parse)
  }

  /** The requests for a round's paths, parsed in order; the first malformed
      path raises its `ValueError` before the round is sent. */
  function DeleteRequests(paths: seq<string>, parse: RequestFor): (r: Result<seq<DeleteRequest>, Error>)
    ensures r.Success? <==> forall i :: 0 <= i < |paths| ==> parse(paths[i]).Success?
    ensures r.Success? ==> |r.value| == |paths|
    ensures r.Success? ==> forall i :: 0 <= i < |paths| ==> parse(paths[i]) == Success(r.value[i])
    ensures r.Failure? ==>
      FirstRejected(paths, parse) < |paths| && parse(paths[FirstRejected(paths, parse)]) == Failure(r.error)
    decreases |paths|
  {
    if paths == [] then Success([])
    else
      var first :- parse(paths[0]);
      var rest :- DeleteRequests(paths[1..], parse);
      assert forall i :: 1 <= i < |paths| ==> paths[i] == paths[1..][i - 1];
      Success([first] + rest)
  }

  /** The batch entries `(path, status)` of one round, in order. Python pairs
      the i-th sub-response with the i-th path (`enumerate`). */
  function RoundEntries(chunk: seq<string>, calls: seq<CallResult<()>>): (es: seq<(string, Option<Error>)>)
    requires |calls| <= |chunk|
    ensures |es| == |calls|
    ensures forall i :: 0 <= i < |es| ==> es[i] == (chunk[i], DeleteStatus(calls[i]))
  {
    seq(|calls|, i requires 0 <= i < |calls| => (chunk[i], DeleteStatus(calls[i])))
  }

  /** What `delete_batch` sent, round by round, what came back, and how the
      call ended. */
  datatype DeleteBatchRun = DeleteBatchRun(
    sent: seq<seq<DeleteRequest>>,
    received: seq<seq<CallResult<()>>>,
    outcome: Run<seq<(string, Option<Error>)>>)

  /** Round `k` sent the requests of `chunks[k]`, as batch number `round + k`,
      and received what the endpoint answered to them. */
  predicate RoundSent(chunks: seq<seq<string>>, sent: seq<seq<DeleteRequest>>, received: seq<seq<CallResult<()>>>,
                      round: nat, server: DeleteBatchServer, parse: RequestFor, k: nat) {
    && k < |chunks| && k < |sent| && k < |received|
    && DeleteRequests(chunks[k], parse) == Success(sent[k])
    && received[k] == server(round + k, sent[k])
  }

  /** The rounds of `delete_batch` from `chunks[0]` on, numbered from `round`,
      each building its requests with `parse` just before it is sent. */
  function DeleteRounds(chunks: seq<seq<string>>, round: nat, server: DeleteBatchServer, parse: RequestFor): (r: DeleteBatchRun)
    ensures |r.received| == |r.sent| <= |chunks|
    ensures forall k :: 0 <= k < |r.sent| ==> RoundSent(chunks, r.sent, r.received, round, server, parse, k)
    ensures r.outcome.Finished? ==> |r.sent| == |chunks|
    ensures r.outcome.Finished? ==> forall i :: 0 <= i < |r.outcome.value| ==> NotFoundAbsorbed(r.outcome.value[i].1)
    ensures !r.outcome.OutOfFuel?
    decreases |chunks|
  {
    if chunks == [] then DeleteBatchRun([], [], Finished([]))
    else
      match DeleteRequests(chunks[0], parse)
      case Failure(e) => DeleteBatchRun([], [], Raised(e))
      case Success(requests) =>
        var calls := server(round, requests);
        if |calls| > |chunks[0]| then DeleteBatchRun([requests], [calls], Raised(IndexError))
        else
          var entries := RoundEntries(chunks[0], calls);
          var rest := DeleteRounds(chunks[1..], round + 1, server, parse);
          var sent := [requests] + rest.sent;
          var received := [calls] + rest.received;
          assert forall k :: 0 <= k < |sent| ==> RoundSent(chunks, sent, received, round, server, parse, k) by {
            forall k | 0 <= k < |sent|
              ensures RoundSent(chunks, sent, received, round, server, parse, k)
            {
              if k > 0 {
                assert RoundSent(chunks[1..], rest.sent, rest.received, round + 1, server, parse, k - 1);
                assert sent[k] == rest.sent[k - 1] && received[k] == rest.received[k - 1];
                assert chunks[k] == chunks[1..][k - 1];
                assert round + 1 + (k - 1) == round + k;
              }
            }
          }
          match rest.outcome
          case Finished(es) => DeleteBatchRun(sent, received, Finished(entries + es))
          case _ => DeleteBatchRun(sent, received, rest.outcome)
  }

  /** `delete_batch(paths)`: the requests sent round by round, the replies,
      and the list of `(path, exception)` pairs or the error that ended the
      call. Round `k` is numbered `k` and carries the requests of the `k`-th
      chunk, never more than `MAX_BATCH_OPERATION_SIZE` of them. */
  function DeleteBatch(paths: seq<string>, server: DeleteBatchServer): (r: DeleteBatchRun)
    ensures paths == [] ==> r == DeleteBatchRun([], [], Finished([]))
    ensures |r.received| == |r.sent| <= CeilDiv(|paths|, MAX_BATCH_OPERATION_SIZE)
    ensures forall k :: 0 <= k < |r.sent| ==>
      && k < |Chunks(paths)|
      && 0 < |r.sent[k]| <= MAX_BATCH_OPERATION_SIZE
      && DeleteRequests(Chunks(paths)[k], DeleteRequestFor) == Success(r.sent[k])
      && r.received[k] == server(k, r.sent[k])
    ensures r.outcome.Finished? ==> |r.sent| == CeilDiv(|paths|, MAX_BATCH_OPERATION_SIZE)
    ensures r.outcome.Finished? ==> forall i :: 0 <= i < |r.outcome.value| ==> NotFoundAbsorbed(r.outcome.value[i].1)
    ensures !r.outcome.OutOfFuel?
  {
    if paths == [] then DeleteBatchRun([], [], Finished([]))
    else
      var r := DeleteRounds(Chunks(paths), 0, server, DeleteRequestFor);
      assert forall k :: 0 <= k < |r.sent| ==>
        && k < |Chunks(paths)|
        && 0 < |r.sent[k]| <= MAX_BATCH_OPERATION_SIZE
        && DeleteRequests(Chunks(paths)[k], DeleteRequestFor) == Success(r.sent[k])
        && r.received[k] == server(k, r.sent[k]) by {
        forall k | 0 <= k < |r.sent|
          ensures k < |Chunks(paths)| && DeleteRequests(Chunks(paths)[k], DeleteRequestFor) == Success(r.sent[k])
          ensures r.received[k] == server(k, r.sent[k])
        {
          assert RoundSent(Chunks(paths), r.sent, r.received, 0, server, DeleteRequestFor, k);
        }
      }
      r
  }

  /** `parse` never fails with `IndexError`. */
  ghost predicate NoIndexError(parse: RequestFor) {
    forall path :: parse(path).Failure? ==> parse(path).error != IndexError
  }

  /** The path parser fails only with `ValueError`. */
  lemma DeleteRequestForNoIndexError()
    ensures NoIndexError(DeleteRequestFor)
  {
    forall path | DeleteRequestFor(path).Failure?
      ensures DeleteRequestFor(path).error.ValueError?
    {
    }
  }

  /** A server that answers every sub-request of every round exactly once. */
  ghost predicate AnswersEach(server: DeleteBatchServer) {
    forall round, requests :: |server(round, requests)| == |requests|
  }

  lemma FlattenCons<T>(a: seq<T>, rest: seq<seq<T>>)
    ensures Flatten([a] + rest) == a + Flatten(rest)
  {
    assert ([a] + rest)[1..] == rest;
  }

  /** With a well-behaved batch endpoint and well-formed paths, `delete_batch`
      returns one entry per input path, in input order: across all rounds the
      `i`-th request sent is the one for path `i`, and entry `i` pairs path `i`
      with the status of the `i`-th sub-response. */
  lemma DeleteBatchOnePerPath(paths: seq<string>, server: DeleteBatchServer)
    requires AnswersEach(server)
    requires forall i :: 0 <= i < |paths| ==> DeleteRequestFor(paths[i]).Success?
    ensures var r := DeleteBatch(paths, server);
      && r.outcome.Finished?
      && |r.outcome.value| == |Flatten(r.sent)| == |Flatten(r.received)| == |paths|
      && forall i :: 0 <= i < |paths| ==>
           && DeleteRequestFor(paths[i]) == Success(Flatten(r.sent)[i])
           && r.outcome.value[i] == (paths[i], DeleteStatus(Flatten(r.received)[i]))
  {
    if paths != [] {
      DeleteRoundsRaise(Chunks(paths), 0, server, DeleteRequestFor);
      DeleteRoundsSentInOrder(Chunks(paths), 0, server, DeleteRequestFor);
      DeleteRoundsEntriesInOrder(Chunks(paths), 0, server, DeleteRequestFor);
    }
  }

  /** The `i`-th element of a concatenation, read from its first part or
      from the rest. */
  lemma FlattenAt<T>(a: seq<T>, rest: seq<seq<T>>, i: nat)
    requires i < |a| + |Flatten(rest)|
    ensures |Flatten([a] + rest)| == |a| + |Flatten(rest)|
    ensures Flatten([a] + rest)[i] == if i < |a| then a[i] else Flatten(rest)[i - |a|]
  {
    FlattenCons(a, rest);
  }

  /** For any batch endpoint, the requests sent, across all rounds, are
      those of the input paths in input order, and a finished call sent one
      for every path. */
  lemma {:induction false} DeleteRoundsSentInOrder(chunks: seq<seq<string>>, round: nat, server: DeleteBatchServer, parse: RequestFor)
    ensures var r := DeleteRounds(chunks, round, server, parse);
      && |Flatten(r.sent)| <= |Flatten(chunks)|
      && (r.outcome.Finished? ==> |Flatten(r.sent)| == |Flatten(chunks)|)
      && forall i :: 0 <= i < |Flatten(r.sent)| ==> parse(Flatten(chunks)[i]) == Success(Flatten(r.sent)[i])
    decreases |chunks|
  {
    var r := DeleteRounds(chunks, round, server, parse);
    if chunks != [] && DeleteRequests(chunks[0], parse).Success? {
      var requests := DeleteRequests(chunks[0], parse).value;
      var calls := server(round, requests);
      assert chunks == [chunks[0]] + chunks[1..];
      FlattenCons(chunks[0], chunks[1..]);
      var tail := if |calls| > |chunks[0]| then [] else DeleteRounds(chunks[1..], round + 1, server, parse).sent;
      assert r.sent == [requests] + tail;
      FlattenCons(requests, tail);
      if |calls| <= |chunks[0]| {
        DeleteRoundsSentInOrder(chunks[1..], round + 1, server, parse);
      }
      forall i | 0 <= i < |Flatten(r.sent)|
        ensures parse(Flatten(chunks)[i]) == Success(Flatten(r.sent)[i])
      {
        FlattenAt(requests, tail, i);
        FlattenAt(chunks[0], chunks[1..], i);
      }
    }
  }

  /** With a batch endpoint that answers each request once, a finished call
      has one entry per path and per sub-reply, and entry `i` pairs path `i`
      with the status of the `i`-th sub-reply. */
  lemma {:induction false} DeleteRoundsEntriesInOrder(chunks: seq<seq<string>>, round: nat, server: DeleteBatchServer, parse: RequestFor)
    requires AnswersEach(server)
    ensures var r := DeleteRounds(chunks, round, server, parse);
      r.outcome.Finished? ==>
        && |r.outcome.value| == |Flatten(r.received)| == |Flatten(chunks)|
        && forall i :: 0 <= i < |r.outcome.value| ==>
             r.outcome.value[i] == (Flatten(chunks)[i], DeleteStatus(Flatten(r.received)[i]))
    decreases |chunks|
  {
    var r := DeleteRounds(chunks, round, server, parse);
    if chunks != [] && DeleteRequests(chunks[0], parse).Success? && r.outcome.Finished? {
      var calls := server(round, DeleteRequests(chunks[0], parse).value);
      var rest := DeleteRounds(chunks[1..], round + 1, server, parse);
      var entries := DeleteRoundsCons(chunks, round, server, parse);
      DeleteRoundsEntriesInOrder(chunks[1..], round + 1, server, parse);
      var flat, tail := Flatten(chunks), Flatten(chunks[1..]);
      assert chunks == [chunks[0]] + chunks[1..];
      FlattenCons(chunks[0], chunks[1..]);
      FlattenCons(calls, rest.received);
      assert flat == chunks[0] + tail;
      assert Flatten(r.received) == calls + Flatten(rest.received);
      assert r.outcome.value == entries + rest.outcome.value;
    }
  }

  /** A round whose requests all parse and whose reply is not too long is
      followed by the rounds after it; its entries come first. */
  lemma DeleteRoundsCons(chunks: seq<seq<string>>, round: nat, server: DeleteBatchServer, parse: RequestFor)
    returns (entries: seq<(string, Option<Error>)>)
    requires AnswersEach(server)
    requires chunks != [] && DeleteRequests(chunks[0], parse).Success?
    ensures var requests := DeleteRequests(chunks[0], parse).value;
      var calls := server(round, requests);
      var rest := DeleteRounds(chunks[1..], round + 1, server, parse);
      && |calls| == |chunks[0]|
      && entries == RoundEntries(chunks[0], calls)
      && DeleteRounds(chunks, round, server, parse).received == [calls] + rest.received
      && (DeleteRounds(chunks, round, server, parse).outcome.Finished? <==> rest.outcome.Finished?)
      && (rest.outcome.Finished? ==>
            DeleteRounds(chunks, round, server, parse).outcome.value == entries + rest.outcome.value)
  {
    var requests := DeleteRequests(chunks[0], parse).value;
    var calls := server(round, requests);
    assert |calls| == |requests|;
    entries := RoundEntries(chunks[0], calls);
  }


  /** For any batch endpoint, every round before the last got at most one
      sub-reply per request. */
  lemma {:induction false} DeleteRoundsShortBeforeLast(chunks: seq<seq<string>>, round: nat, server: DeleteBatchServer, parse: RequestFor)
    ensures var r := DeleteRounds(chunks, round, server, parse);
      forall k :: 0 <= k < |r.sent| - 1 ==> |r.received[k]| <= |chunks[k]|
    decreases |chunks|
  {
    var r := DeleteRounds(chunks, round, server, parse);
    if chunks != [] && DeleteRequests(chunks[0], parse).Success? {
      var calls := server(round, DeleteRequests(chunks[0], parse).value);
      if |calls| <= |chunks[0]| {
        var rest := DeleteRounds(chunks[1..], round + 1, server, parse);
        DeleteRoundsShortBeforeLast(chunks[1..], round + 1, server, parse);
        forall k | 0 < k < |r.sent| - 1
          ensures |r.received[k]| <= |chunks[k]|
        {
          assert r.received[k] == rest.received[k - 1] && chunks[k] == chunks[1..][k - 1];
        }
      }
    }
  }

  /** For any batch endpoint, `IndexError` is raised exactly when the last
      round sent got more sub-replies than it had paths. */
  lemma {:induction false} DeleteRoundsIndexError(chunks: seq<seq<string>>, round: nat, server: DeleteBatchServer, parse: RequestFor)
    requires NoIndexError(parse)
    ensures var r := DeleteRounds(chunks, round, server, parse);
      r.outcome == Raised(IndexError) <==> |r.sent| > 0 && |Last(r.received)| > |chunks[|r.sent| - 1]|
    decreases |chunks|
  {
    var r := DeleteRounds(chunks, round, server, parse);
    if chunks != [] && DeleteRequests(chunks[0], parse).Success? {
      var requests := DeleteRequests(chunks[0], parse).value;
      var calls := server(round, requests);
      if |calls| > |chunks[0]| {
        assert r == DeleteBatchRun([requests], [calls], Raised(IndexError));
      } else {
        var rest := DeleteRounds(chunks[1..], round + 1, server, parse);
        DeleteRoundsIndexError(chunks[1..], round + 1, server, parse);
        assert r.received == [calls] + rest.received;
        assert r.outcome == Raised(IndexError) <==> rest.outcome == Raised(IndexError);
        if |rest.sent| > 0 {
          assert Last(r.received) == Last(rest.received);
          assert chunks[|r.sent| - 1] == chunks[1..][|rest.sent| - 1];
        }
      }
    }
  }

  /** For any batch endpoint, a finished call has one entry per sub-reply,
      so a round answered short yields fewer entries than it had paths. */
  lemma {:induction false} DeleteRoundsEntryCount(chunks: seq<seq<string>>, round: nat, server: DeleteBatchServer, parse: RequestFor)
    ensures var r := DeleteRounds(chunks, round, server, parse);
      r.outcome.Finished? ==> |r.outcome.value| == |Flatten(r.received)|
    decreases |chunks|
  {
    var r := DeleteRounds(chunks, round, server, parse);
    if chunks != [] && DeleteRequests(chunks[0], parse).Success? {
      var calls := server(round, DeleteRequests(chunks[0], parse).value);
      if |calls| <= |chunks[0]| {
        var rest := DeleteRounds(chunks[1..], round + 1, server, parse);
        DeleteRoundsEntryCount(chunks[1..], round + 1, server, parse);
        FlattenCons(calls, rest.received);
      }
    }
  }

  /** With a well-behaved batch endpoint, `delete_batch` returns its list
      exactly when every path is well formed, and otherwise raises the
      `ValueError` of the first malformed path. */
  lemma DeleteBatchFinishesIffWellFormed(paths: seq<string>, server: DeleteBatchServer)
    requires AnswersEach(server)
    ensures var r := DeleteBatch(paths, server);
      && (r.outcome.Finished? <==> forall i :: 0 <= i < |paths| ==> DeleteRequestFor(paths[i]).Success?)
      && (r.outcome.Raised? ==>
            && FirstRejected(paths, DeleteRequestFor) < |paths|
            && DeleteRequestFor(paths[FirstRejected(paths, DeleteRequestFor)]) == Failure(r.outcome.error))
  {
    if forall i :: 0 <= i < |paths| ==> DeleteRequestFor(paths[i]).Success? {
      DeleteBatchOnePerPath(paths, server);
    }
    if paths != [] {
      DeleteRoundsRaise(Chunks(paths), 0, server, DeleteRequestFor);
    }
  }

  /** The first rejected path of a concatenation is the first part's, or
      else the rest's, shifted. */
  lemma {:induction false} FirstRejectedConcat(a: seq<string>, b: seq<string>, parse: RequestFor)
    ensures FirstRejected(a + b, parse) ==
      if FirstRejected(a, parse) < |a| then FirstRejected(a, parse) else |a| + FirstRejected(b, parse)
    decreases |a|
  {
    if a == [] {
      assert a + b == b;
    } else {
      assert (a + b)[0] == a[0];
      if parse(a[0]).Success? {
        assert (a + b)[1..] == a[1..] + b;
        FirstRejectedConcat(a[1..], b, parse);
      }
    }
  }

  /** With a batch endpoint that answers each request once, a call returns
      its list exactly when every path parses, and otherwise raises the
      error of the first path that does not. */
  lemma {:induction false} DeleteRoundsRaise(chunks: seq<seq<string>>, round: nat, server: DeleteBatchServer, parse: RequestFor)
    requires AnswersEach(server)
    ensures var r := DeleteRounds(chunks, round, server, parse);
      && (r.outcome.Finished? ==> forall i :: 0 <= i < |Flatten(chunks)| ==> parse(Flatten(chunks)[i]).Success?)
      && (r.outcome.Raised? ==>
            && FirstRejected(Flatten(chunks), parse) < |Flatten(chunks)|
            && parse(Flatten(chunks)[FirstRejected(Flatten(chunks), parse)]) == Failure(r.outcome.error))
    decreases |chunks|
  {
    if chunks != [] {
      var r := DeleteRounds(chunks, round, server, parse);
      var flat := Flatten(chunks);
      var tail := Flatten(chunks[1..]);
      FlattenCons(chunks[0], chunks[1..]);
      assert chunks == [chunks[0]] + chunks[1..];
      assert flat == chunks[0] + tail;
      FirstRejectedConcat(chunks[0], tail, parse);
      assert forall i :: 0 <= i < |chunks[0]| ==> chunks[0][i] == flat[i];
      assert forall i :: 0 <= i < |tail| ==> tail[i] == flat[|chunks[0]| + i];
      match DeleteRequests(chunks[0], parse)
      case Failure(e) =>
      case Success(requests) =>
        DeleteRoundsRaise(chunks[1..], round + 1, server, parse);
        var rest := DeleteRounds(chunks[1..], round + 1, server, parse);
        assert r.outcome.Raised? ==> rest.outcome.Raised? && r.outcome.error == rest.outcome.error;
    }
  }

  /** For any batch endpoint, a call that raises anything but `IndexError`
      stopped at the first round with a malformed path: every round before
      it was sent, and so its objects were already deleted, and the error
      is that round's first parse error. */
  lemma {:induction false} DeleteRoundsStopAtBadChunk(chunks: seq<seq<string>>, round: nat, server: DeleteBatchServer, parse: RequestFor)
    ensures var r := DeleteRounds(chunks, round, server, parse);
      r.outcome.Raised? && r.outcome.error != IndexError ==>
        |r.sent| < |chunks| && DeleteRequests(chunks[|r.sent|], parse) == Failure(r.outcome.error)
    decreases |chunks|
  {
    var r := DeleteRounds(chunks, round, server, parse);
    if chunks != [] && DeleteRequests(chunks[0], parse).Success? {
      var calls := server(round, DeleteRequests(chunks[0], parse).value);
      if |calls| <= |chunks[0]| {
        var rest := DeleteRounds(chunks[1..], round + 1, server, parse);
        DeleteRoundsStopAtBadChunk(chunks[1..], round + 1, server, parse);
        assert |r.sent| == 1 + |rest.sent|;
        if rest.outcome.Raised? && rest.outcome.error != IndexError {
          assert chunks[|r.sent|] == chunks[1..][|rest.sent|];
        }
      }
    }
  }

  /** `delete_batch` raising a `ValueError` (or any error but `IndexError`)
      has already sent the rounds before the one holding the first malformed
      path, and raises that path's error without sending that round. */
  lemma DeleteBatchStopsAtBadChunk(paths: seq<string>, server: DeleteBatchServer)
    ensures var r := DeleteBatch(paths, server);
      r.outcome.Raised? && r.outcome.error != IndexError ==>
        && |r.sent| < |Chunks(paths)|
        && DeleteRequests(Chunks(paths)[|r.sent|], DeleteRequestFor) == Failure(r.outcome.error)
  {
    if paths != [] {
      DeleteRoundsStopAtBadChunk(Chunks(paths), 0, server, DeleteRequestFor);
    }
  }
}

=== FILE: errors.dfy ===
/** The exceptions the storage connector raises or reports, and the shapes of
    remote call outcomes. */
module Errors {

  /** `errno.ENOENT`: no such file or directory. */
  const ENOENT: int := 2

  /** HTTP status the storage service uses for a missing object. */
  const HTTP_NOT_FOUND: int := 404

  datatype Error =
    /** `HttpError` raised by the storage client for a non-2xx reply. */
    | HttpError(statusCode: int, content: string)
    /** Any other exception a sub-call of a batch can report (not an `HttpError`). */
    | ClientError(description: string)
    /** `GcsIOError(errno, message)`, the connector's own permanent error. */
    | GcsIOError(errno: int, message: string)
    /** `ValueError`, raised for a malformed `gs://` path. */
    | ValueError(message: string)
    /** `IndexError`, raised when a batch reply has more entries than requests. */
    | IndexError
    /** `AssertionError` from a failed `assert` statement. */
    | AssertionError

  /** The `isinstance(e, HttpError) and e.status_code == 404` test. */
  predicate IsNotFound(e: Error) {
    e.HttpError? && e.statusCode == HTTP_NOT_FOUND
  }

  /** The outcome of one remote call: a response, or the error it raised. */
  datatype CallResult<+T> = CallOk(response: T) | CallError(error: Error)

  /** How a connector operation ends: it returns a value, raises an error,
      or is still looping when the bound on remote calls is reached. */
  datatype Run<+T> = Finished(value: T) | Raised(error: Error) | OutOfFuel
}

=== FILE: gcs_path.dfy ===
/** `parse_gcs_path`: splitting `gs://<bucket>/<object>` into its two parts.

    The source matches the regular expression `^gs://([^/]+)/(.*)$`. The
    bucket group is a non-empty run of characters other than `/` (a newline is
    allowed there); the object group `.*` stops at a newline, and `$` matches
    at the end of the string or just before one final newline. The model
    spells out that behaviour for every string, newlines included. */
module GcsPath {
  import opened Wrappers
  import opened Errors

  const SCHEME: string := "gs://"

  /** The fixed text of the `ValueError`; the offending path is appended. */
  const PATH_FORM_MESSAGE: string := "GCS path must be in the form gs://<bucket>/<object>. Encountered "

  /** A bucket the parser can return: non-empty and free of `/`. */
  predicate ValidBucket(bucket: string) {
    bucket != "" && '/' !in bucket
  }

  /** The path `gs://<bucket>/<name>`. */
  function Join(bucket: string, name: string): string {
    SCHEME + bucket + "/" + name
  }

  /** The strings the regular expression accepts for these two groups: the
      joined path, optionally followed by a single newline. */
  predicate Spells(path: string, bucket: string, name: string) {
    path == Join(bucket, name) || path == Join(bucket, name) + "\n"
  }

  /** The groups the parser may return when the object may or may not be empty. */
  predicate Acceptable(bucket: string, name: string, objectOptional: bool) {
    ValidBucket(bucket) && '\n' !in name && (name != "" || objectOptional)
  }

  /** Index of the first `c` in `s` at or after `from`, or `|s|` if none. */
  function IndexOf(s: string, c: char, from: nat): (k: nat)
    requires from <= |s|
    ensures from <= k <= |s|
    ensures k < |s| ==> s[k] == c
    ensures forall j :: from <= j < k ==> s[j] != c
    decreases |s| - from
  {
    if from == |s| || s[from] == c then from else IndexOf(s, c, from + 1)
  }

  /** What `(.*)$` captures from the text after the bucket's `/`, if it matches. */
  function ObjectGroup(rest: string): (g: Option<string>)
    ensures g.Some? ==> '\n' !in g.value
    ensures g.Some? ==> rest == g.value || rest == g.value + "\n"
    ensures '\n' !in rest ==> g == Some(rest)
  {
    if '\n' !in rest then Some(rest)
    else if rest[|rest| - 1] == '\n' && '\n' !in rest[..|rest| - 1] then
      assert rest == rest[..|rest| - 1] + "\n";
      Some(rest[..|rest| - 1])
    else None
  }

  /** `parse_gcs_path(gcs_path, object_optional)`: the bucket and object
      names, or the `ValueError` the source raises. */
  function ParseGcsPath(path: string, objectOptional: bool): (r: Result<(string, string), Error>)
    ensures r.Success? ==> Acceptable(r.value.0, r.value.1, objectOptional)
    ensures r.Success? ==> Spells(path, r.value.0, r.value.1)
    ensures r.Failure? ==> r.error == ValueError(PATH_FORM_MESSAGE + path)
  {
    var bad := Failure(ValueError(PATH_FORM_MESSAGE + path));
    if |path| < |SCHEME| || path[..|SCHEME|] != SCHEME then bad
    else
      var k := IndexOf(path, '/', |SCHEME|);
      if k == |SCHEME| || k == |path| then bad
      else
        var bucket := path[|SCHEME|..k];
        match ObjectGroup(path[k + 1..])
        case None => bad
        case Some(name) =>
          if name == "" && !objectOptional then bad
          else
            SplitAtSlash(path, k);
            JoinNewline(bucket, name);
            Success((bucket, name))
  }

  /** A path that starts with `gs://`, then a run of characters other than
      `/`, then `/` at `k`, is the join of that run and the text after `k`. */
  lemma SplitAtSlash(path: string, k: nat)
    requires |SCHEME| < k < |path| && path[..|SCHEME|] == SCHEME && path[k] == '/'
    requires forall j :: |SCHEME| <= j < k ==> path[j] != '/'
    ensures ValidBucket(path[|SCHEME|..k])
    ensures path == Join(path[|SCHEME|..k], path[k + 1..])
  {
    var bucket := path[|SCHEME|..k];
    forall j | 0 <= j < |bucket|
      ensures bucket[j] != '/'
    {
      assert bucket[j] == path[|SCHEME| + j];
    }
    assert path == path[..|SCHEME|] + bucket + path[k..k + 1] + path[k + 1..];
  }

  lemma JoinNewline(bucket: string, name: string)
    ensures Join(bucket, name + "\n") == Join(bucket, name) + "\n"
  {
  }

  /** Parsing a well-formed path returns exactly its bucket and object, and so
      does the same path with one trailing newline. */
  lemma ParseJoin(bucket: string, name: string, objectOptional: bool)
    requires Acceptable(bucket, name, objectOptional)
    ensures ParseGcsPath(Join(bucket, name), objectOptional) == Success((bucket, name))
    ensures ParseGcsPath(Join(bucket, name) + "\n", objectOptional) == Success((bucket, name))
  {
    ParseSpelled(Join(bucket, name), bucket, name, objectOptional);
    ParseSpelled(Join(bucket, name) + "\n", bucket, name, objectOptional);
  }

  lemma ParseSpelled(path: string, bucket: string, name: string, objectOptional: bool)
    requires Acceptable(bucket, name, objectOptional)
    requires Spells(path, bucket, name)
    ensures ParseGcsPath(path, objectOptional) == Success((bucket, name))
  {
    var tail := TailOf(path, bucket, name);
    var k := JoinParts(bucket, tail);
    ObjectGroupOfTail(name, tail);
  }

  /** The text after the bucket's `/` in a path that spells `bucket` and `name`. */
  lemma TailOf(path: string, bucket: string, name: string) returns (tail: string)
    requires Spells(path, bucket, name)
    ensures path == Join(bucket, tail)
    ensures tail == name || tail == name + "\n"
  {
    tail := if path == Join(bucket, name) then name else name + "\n";
    assert Join(bucket, name) + "\n" == Join(bucket, name + "\n");
  }

  lemma ObjectGroupOfTail(name: string, tail: string)
    requires '\n' !in name
    requires tail == name || tail == name + "\n"
    ensures ObjectGroup(tail) == Some(name)
  {
    if tail != name {
      assert tail[..|tail| - 1] == name;
    }
  }

  /** Where the pieces of `Join(bucket, tail)` sit, and that the parser's
      search for the first `/` finds the one after the bucket. */
  lemma JoinParts(bucket: string, tail: string) returns (k: nat)
    requires ValidBucket(bucket)
    ensures k == |SCHEME| + |bucket| < |Join(bucket, tail)|
    ensures Join(bucket, tail)[..|SCHEME|] == SCHEME
    ensures Join(bucket, tail)[|SCHEME|..k] == bucket
    ensures Join(bucket, tail)[k + 1..] == tail
    ensures IndexOf(Join(bucket, tail), '/', |SCHEME|) == k
  {
    var path := Join(bucket, tail);
    var n := |SCHEME|;
    k := n + |bucket|;
    assert path[k] == '/';
    forall j | n <= j < k
      ensures path[j] != '/'
    {
      assert path[j] == bucket[j - n];
    }
    IndexOfFirst(path, '/', n, k);
  }

  lemma IndexOfFirst(s: string, c: char, from: nat, k: nat)
    requires from <= k < |s| && s[k] == c
    requires forall j :: from <= j < k ==> s[j] != c
    ensures IndexOf(s, c, from) == k
    decreases k - from
  {
    if from < k {
      IndexOfFirst(s, c, from + 1, k);
    }
  }

  /** The parser accepts a path exactly when the path spells some acceptable
      bucket and object; in particular a string that does not start with
      `gs://`, a non-empty bucket and `/` is rejected. */
  lemma ParseAcceptsExactly(path: string, objectOptional: bool)
    ensures ParseGcsPath(path, objectOptional).Success? <==>
      exists bucket, name :: Acceptable(bucket, name, objectOptional) && Spells(path, bucket, name)
  {
    if exists bucket, name :: Acceptable(bucket, name, objectOptional) && Spells(path, bucket, name) {
      var bucket, name :| Acceptable(bucket, name, objectOptional) && Spells(path, bucket, name);
      ParseSpelled(path, bucket, name, objectOptional);
    }
  }

  /** `gs://<bucket>/` names the bucket itself: accepted, with an empty object,
      only when the object is optional. */
  lemma ParseBucketOnly(bucket: string, objectOptional: bool)
    requires ValidBucket(bucket)
    ensures ParseGcsPath(Join(bucket, ""), objectOptional) ==
      if objectOptional then Success((bucket, ""))
      else Failure(ValueError(PATH_FORM_MESSAGE + Join(bucket, "")))
  {
    if objectOptional {
      ParseJoin(bucket, "", true);
    } else {
      var r := ParseGcsPath(Join(bucket, ""), false);
      if r.Success? {
        ParseSpelled(Join(bucket, ""), bucket, "", true);
        ParseDeterministic(Join(bucket, ""), r.value.0, r.value.1, bucket, "");
      }
    }
  }

  /** A path spells at most one bucket and object. */
  lemma ParseDeterministic(path: string, b1: string, n1: string, b2: string, n2: string)
    requires ValidBucket(b1) && '\n' !in n1 && Spells(path, b1, n1)
    requires ValidBucket(b2) && '\n' !in n2 && Spells(path, b2, n2)
    ensures b1 == b2 && n1 == n2
  {
    var t1 := TailOf(path, b1, n1);
    var t2 := TailOf(path, b2, n2);
    var k1 := JoinParts(b1, t1);
    var k2 := JoinParts(b2, t2);
    ObjectGroupOfTail(n1, t1);
    ObjectGroupOfTail(n2, t2);
  }
}

=== FILE: listing.dfy ===
/** `GcsIO.list_files`: paging through `objects.List`, threading
    `nextPageToken`, and yielding each file name at most once. */
module GcsListing {
  import opened Wrappers
  import opened Errors
  import opened GcsPath
  import opened Seqs

  /** `StorageObjectsListRequest(bucket, prefix)`; `pageToken` is unset on the first page. */
  datatype ListRequest = ListRequest(bucket: string, prefix: string, pageToken: Option<string>)

  /** One listed object: its bucket, name and size. */
  datatype ObjectItem = ObjectItem(bucket: string, name: string, size: int)

  /** One page of the listing and the token of the next page, if any. */
  datatype ListResponse = ListResponse(items: seq<ObjectItem>, nextPageToken: Option<string>)

  /** The storage service answering the `page`-th `objects.List` call. */
  type ListServer = (nat, ListRequest) -> CallResult<ListResponse>

  /** A yielded entry: `(file name, size)`. */
  type FileInfo = (string, int)

  /** `'gs://%s/%s' % (item.bucket, item.name)`. */
  function FileName(item: ObjectItem): string {
    Join(item.bucket, item.name)
  }

  /** Python truthiness of `response.nextPageToken`: present and non-empty. */
  predicate HasNextPage(token: Option<string>) {
    token.Some? && token.value != ""
  }

  /** The name a listed object is yielded under parses back into the
      object's bucket and name. */
  lemma FileNameParses(item: ObjectItem)
    requires Acceptable(item.bucket, item.name, true)
    ensures ParseGcsPath(FileName(item), true) == Success((item.bucket, item.name))
  {
    ParseJoin(item.bucket, item.name, true);
  }

  /** A page whose `nextPageToken` is missing or empty ends the listing:
      the loop requests no further page and finishes. */
  lemma EmptyTokenEndsListing(request: ListRequest, seen: set<string>, page: nat, server: ListServer, fuel: nat)
    requires fuel > 0
    requires server(page, request).CallOk?
    requires server(page, request).response.nextPageToken in {None, Some("")}
    ensures ListPages(request, seen, page, server, fuel).sent == [request]
    ensures ListPages(request, seen, page, server, fuel).outcome == Finished(())
  {
  }

  /** The file names of a list of yielded entries. */
  function Names(files: seq<FileInfo>): set<string> {
    set i | 0 <= i < |files| :: files[i].0
  }

  lemma NamesConcat(a: seq<FileInfo>, b: seq<FileInfo>)
    ensures Names(a + b) == Names(a) + Names(b)
  {
    forall x | x in Names(a + b)
      ensures x in Names(a) + Names(b)
    {
      var i :| 0 <= i < |a + b| && (a + b)[i].0 == x;
      if i >= |a| {
        assert b[i - |a|] == (a + b)[i];
      }
    }
    forall x | x in Names(b)
      ensures x in Names(a + b)
    {
      var i :| 0 <= i < |b| && b[i].0 == x;
      assert (a + b)[|a| + i] == b[i];
    }
    forall x | x in Names(a)
      ensures x in Names(a + b)
    {
      var i :| 0 <= i < |a| && a[i].0 == x;
      assert (a + b)[i] == a[i];
    }
  }

  /** The file names of a page's items. */
  function ItemNames(items: seq<ObjectItem>): set<string> {
    set i | 0 <= i < |items| :: FileName(items[i])
  }

  /** No file name is yielded twice. */
  predicate NamesUnique(files: seq<FileInfo>) {
    forall i, j :: 0 <= i < j < |files| ==> files[i].0 != files[j].0
  }

  /** `file` is the name and size of one of `items`. */
  ghost predicate FromItems(file: FileInfo, items: seq<ObjectItem>) {
    exists k :: 0 <= k < |items| && FileName(items[k]) == file.0 && items[k].size == file.1
  }

  /** The entries one page yields: the items whose name is not yet in
      `seen`, in page order, each name once. */
  function NewFiles(items: seq<ObjectItem>, seen: set<string>): (out: seq<FileInfo>)
    ensures NamesUnique(out)
    ensures Names(out) !! seen
    ensures seen + Names(out) == seen + ItemNames(items)
    ensures forall i :: 0 <= i < |out| ==> FromItems(out[i], items)
    decreases |items|
  {
    if items == [] then []
    else
      var name := FileName(items[0]);
      var rest := NewFiles(items[1..], if name in seen then seen else seen + {name});
      ItemNamesCons(items);
      FromItemsTail(rest, items);
      if name in seen then rest
      else
        NewFileCons(items, rest);
        [(name, items[0].size)] + rest
  }

  /** The names of a page are its first item's and those of the rest. */
  lemma ItemNamesCons(items: seq<ObjectItem>)
    requires items != []
    ensures ItemNames(items) == {FileName(items[0])} + ItemNames(items[1..])
  {
    assert forall i :: 1 <= i < |items| ==> items[i] == items[1..][i - 1];
    assert forall i :: 0 <= i < |items[1..]| ==> items[1..][i] == items[i + 1];
  }

  /** An entry taken from the rest of a page is taken from the page. */
  lemma FromItemsTail(files: seq<FileInfo>, items: seq<ObjectItem>)
    requires items != []
    requires forall i :: 0 <= i < |files| ==> FromItems(files[i], items[1..])
    ensures forall i :: 0 <= i < |files| ==> FromItems(files[i], items)
  {
    forall i | 0 <= i < |files|
      ensures FromItems(files[i], items)
    {
      var k :| 0 <= k < |items[1..]| && FileName(items[1..][k]) == files[i].0 && items[1..][k].size == files[i].1;
      assert items[k + 1] == items[1..][k];
    }
  }

  /** Yielding the first item ahead of the entries of the rest of the page. */
  lemma NewFileCons(items: seq<ObjectItem>, rest: seq<FileInfo>)
    requires items != []
    requires forall i :: 0 <= i < |rest| ==> FromItems(rest[i], items)
    ensures var out := [(FileName(items[0]), items[0].size)] + rest;
      && Names(out) == {FileName(items[0])} + Names(rest)
      && forall i :: 0 <= i < |out| ==> FromItems(out[i], items)
  {
    var first := [(FileName(items[0]), items[0].size)];
    NamesConcat(first, rest);
    assert first[0].0 == FileName(items[0]);
    assert Names(first) == {FileName(items[0])};
    var out := first + rest;
    assert FromItems(out[0], items) by {
      assert FileName(items[0]) == out[0].0;
    }
    assert forall i :: 1 <= i < |out| ==> out[i] == rest[i - 1];
  }

  /** `request` carries the next-page token of the reply to `previous`. */
  predicate NextPage(previous: ListRequest, reply: CallResult<ListResponse>, request: ListRequest) {
    reply.CallOk? && HasNextPage(reply.response.nextPageToken) &&
    request == previous.(pageToken := reply.response.nextPageToken)
  }

  /** The `k`-th request of `sent` asks for the page after the one before
      it; the first of `sent` was page number `page`. */
  predicate NextPageAt(sent: seq<ListRequest>, page: nat, server: ListServer, k: nat)
    requires 0 < k < |sent|
  {
    NextPage(sent[k - 1], server(page + k - 1, sent[k - 1]), sent[k])
  }

  /** The reply to the last request of `sent`, the first of which was
      page number `page`. */
  function LastReply(sent: seq<ListRequest>, page: nat, server: ListServer): CallResult<ListResponse>
    requires |sent| > 0
  {
    server(page + |sent| - 1, Last(sent))
  }

  lemma LastReplyCons(request: ListRequest, rest: seq<ListRequest>, page: nat, server: ListServer)
    ensures |rest| > 0 ==> LastReply([request] + rest, page, server) == LastReply(rest, page + 1, server)
  {
    if |rest| > 0 {
      assert Last([request] + rest) == Last(rest);
    }
  }

  /** Every file name on the page the server returned for the `k`-th
      request of `sent` is in `names`. */
  predicate ListedAt(sent: seq<ListRequest>, page: nat, server: ListServer, k: nat, names: set<string>)
    requires k < |sent|
  {
    server(page + k, sent[k]).CallOk? ==> ItemNames(server(page + k, sent[k]).response.items) <= names
  }

  /** `file` is the name and size of an item of the page `reply` returned. */
  ghost predicate OnPage(reply: CallResult<ListResponse>, file: FileInfo) {
    reply.CallOk? && FromItems(file, reply.response.items)
  }

  /** `file` is on the page the server returned for one of the requests
      `sent`, the first of which was page number `page`. */
  ghost predicate FromSomePage(server: ListServer, page: nat, sent: seq<ListRequest>, file: FileInfo) {
    exists k :: 0 <= k < |sent| && OnPage(server(page + k, sent[k]), file)
  }

  /** What the listing generator sent, what it yielded, and how it ended. */
  datatype ListRun = ListRun(sent: seq<ListRequest>, yielded: seq<FileInfo>, outcome: Run<()>)

  /** The `while True` paging loop from `request` on, as page number `page`,
      with the names in `seen` already yielded, fetching at most `fuel` pages. */
  function ListPages(request: ListRequest, seen: set<string>, page: nat, server: ListServer, fuel: nat)
    : (r: ListRun)
    ensures |r.sent| <= fuel
    ensures fuel > 0 ==> |r.sent| > 0 && r.sent[0] == request
    ensures forall k :: 0 < k < |r.sent| ==> NextPageAt(r.sent, page, server, k)
    ensures NamesUnique(r.yielded) && Names(r.yielded) !! seen
    ensures forall i :: 0 <= i < |r.yielded| ==> FromSomePage(server, page, r.sent, r.yielded[i])
    ensures forall k :: 0 <= k < |r.sent| ==> ListedAt(r.sent, page, server, k, seen + Names(r.yielded))
    ensures r.outcome.Finished? ==>
      |r.sent| > 0 && LastReply(r.sent, page, server).CallOk? &&
      !HasNextPage(LastReply(r.sent, page, server).response.nextPageToken)
    ensures r.outcome.Raised? ==>
      |r.sent| > 0 && LastReply(r.sent, page, server) == CallError(r.outcome.error)
    ensures r.outcome.OutOfFuel? ==>
      |r.sent| == fuel &&
      (fuel > 0 ==> LastReply(r.sent, page, server).CallOk? &&
                    HasNextPage(LastReply(r.sent, page, server).response.nextPageToken))
    decreases fuel
  {
    if fuel == 0 then ListRun([], [], OutOfFuel)
    else
      match server(page, request)
      case CallError(e) => ListRun([request], [], Raised(e))
      case CallOk(response) =>
        var files := NewFiles(response.items, seen);
        FirstPage(request, response, files, seen, page, server);
        if !HasNextPage(response.nextPageToken) then ListRun([request], files, Finished(()))
        else
          var seen' := seen + Names(files);
          var rest := ListPages(request.(pageToken := response.nextPageToken), seen', page + 1, server, fuel - 1);
          ListConcat(request, files, rest, seen, page, page + 1, seen' + Names(rest.yielded), server);
          var sent := [request] + rest.sent;
          NextPageConcat(request, rest.sent, page, page + 1, server);
          OutcomeConcat(request, rest.sent, rest.outcome, page, server, fuel);
          ListRun(sent, files + rest.yielded, rest.outcome)
  }

  /** How a run ended, read off its last reply: a page without a next token
      finishes it, an error reply raises, and a run cut short by `fuel`
      fetched `fuel` pages, the last of which pointed to a next one. */
  predicate EndedAt(sent: seq<ListRequest>, outcome: Run<()>, page: nat, server: ListServer, fuel: nat) {
    && (outcome.Finished? ==>
          |sent| > 0 && LastReply(sent, page, server).CallOk? &&
          !HasNextPage(LastReply(sent, page, server).response.nextPageToken))
    && (outcome.Raised? ==>
          |sent| > 0 && LastReply(sent, page, server) == CallError(outcome.error))
    && (outcome.OutOfFuel? ==>
          |sent| == fuel &&
          (fuel > 0 ==> LastReply(sent, page, server).CallOk? &&
                        HasNextPage(LastReply(sent, page, server).response.nextPageToken)))
  }

  /** A page that pointed to a next one, followed by the run from that next
      page, ends as that run does. */
  lemma OutcomeConcat(request: ListRequest, rest: seq<ListRequest>, outcome: Run<()>, page: nat,
                      server: ListServer, fuel: nat)
    requires fuel > 0
    requires server(page, request).CallOk? && HasNextPage(server(page, request).response.nextPageToken)
    requires EndedAt(rest, outcome, page + 1, server, fuel - 1)
    ensures EndedAt([request] + rest, outcome, page, server, fuel)
  {
    LastReplyCons(request, rest, page, server);
    if rest == [] {
      assert LastReply([request] + rest, page, server) == server(page, request);
    }
  }

  /** The entries of the first page are on it, and its names are covered. */
  lemma FirstPage(request: ListRequest, response: ListResponse, files: seq<FileInfo>, seen: set<string>,
                  page: nat, server: ListServer)
    requires server(page, request) == CallOk(response)
    requires forall i :: 0 <= i < |files| ==> FromItems(files[i], response.items)
    requires seen + Names(files) == seen + ItemNames(response.items)
    ensures forall i :: 0 <= i < |files| ==> OnPage(server(page, request), files[i])
    ensures forall i :: 0 <= i < |files| ==> FromSomePage(server, page, [request], files[i])
    ensures ListedAt([request], page, server, 0, seen + Names(files))
  {
    forall i | 0 <= i < |files|
      ensures FromSomePage(server, page, [request], files[i])
    {
      assert OnPage(server(page + 0, [request][0]), files[i]);
    }
  }

  /** Prepending the request whose reply pointed at `rest[0]` keeps the
      page-token chain. */
  lemma NextPageConcat(request: ListRequest, rest: seq<ListRequest>, page: nat, next: nat, server: ListServer)
    requires next == page + 1
    requires |rest| > 0 ==> NextPage(request, server(page, request), rest[0])
    requires forall k :: 0 < k < |rest| ==> NextPageAt(rest, next, server, k)
    ensures forall k :: 0 < k < |[request] + rest| ==> NextPageAt([request] + rest, page, server, k)
  {
    var sent := [request] + rest;
    forall k | 0 < k < |sent|
      ensures NextPageAt(sent, page, server, k)
    {
      assert sent[k] == rest[k - 1];
      if k > 1 {
        assert NextPageAt(rest, next, server, k - 1);
        assert sent[k - 1] == rest[k - 2];
      }
    }
  }

  lemma ListConcat(request: ListRequest, files: seq<FileInfo>, rest: ListRun, seen: set<string>,
                   page: nat, next: nat, names: set<string>, server: ListServer)
    requires server(page, request).CallOk?
    requires NamesUnique(files) && Names(files) !! seen
    requires forall i :: 0 <= i < |files| ==> OnPage(server(page, request), files[i])
    requires seen + Names(files) == seen + ItemNames(server(page, request).response.items)
    requires NamesUnique(rest.yielded) && Names(rest.yielded) !! (seen + Names(files))
    requires forall i :: 0 <= i < |rest.yielded| ==> FromSomePage(server, page + 1, rest.sent, rest.yielded[i])
    requires next == page + 1 && names == seen + Names(files) + Names(rest.yielded)
    requires forall k :: 0 <= k < |rest.sent| ==> ListedAt(rest.sent, next, server, k, names)
    ensures NamesUnique(files + rest.yielded)
    ensures Names(files + rest.yielded) !! seen
    ensures forall i :: 0 <= i < |files + rest.yielded| ==>
      FromSomePage(server, page, [request] + rest.sent, (files + rest.yielded)[i])
    ensures forall k :: 0 <= k < |[request] + rest.sent| ==>
      ListedAt([request] + rest.sent, page, server, k, seen + Names(files + rest.yielded))
  {
    var sent := [request] + rest.sent;
    var yielded := files + rest.yielded;
    NamesConcat(files, rest.yielded);
    forall i, j | 0 <= i < j < |yielded|
      ensures yielded[i].0 != yielded[j].0
    {
      if j < |files| {
      } else if i < |files| {
        assert yielded[i].0 in Names(files);
        assert yielded[j] == rest.yielded[j - |files|];
        assert yielded[j].0 in Names(rest.yielded);
      } else {
        assert yielded[i] == rest.yielded[i - |files|];
      }
    }
    forall i | 0 <= i < |yielded|
      ensures FromSomePage(server, page, sent, yielded[i])
    {
      if i < |files| {
        assert yielded[i] == files[i] && sent[0] == request;
        assert OnPage(server(page, request), files[i]);
        assert OnPage(server(page + 0, sent[0]), yielded[i]);
      } else {
        assert FromSomePage(server, page + 1, rest.sent, rest.yielded[i - |files|]);
        var k :| 0 <= k < |rest.sent| && OnPage(server(page + 1 + k, rest.sent[k]), rest.yielded[i - |files|]);
        assert sent[k + 1] == rest.sent[k];
        assert yielded[i] == rest.yielded[i - |files|];
        assert OnPage(server(page + (k + 1), sent[k + 1]), yielded[i]);
      }
    }
    assert sent == [request] + rest.sent && yielded == files + rest.yielded;
    forall k | 0 <= k < |sent|
      ensures ListedAt(sent, page, server, k, seen + Names(yielded))
    {
      if k > 0 {
        assert sent[k] == rest.sent[k - 1];
        assert page + k == page + 1 + (k - 1);
        assert ListedAt(rest.sent, next, server, k - 1, names);
      }
    }
  }

  /** `list_files(path)`: the bucket and prefix come from the path (an
      empty object is allowed), the first request carries no page token,
      each later one carries the previous reply's next-page token, and the
      generator yields every listed file name exactly once. */
  function ListFiles(path: string, server: ListServer, fuel: nat): (r: ListRun)
    ensures ParseGcsPath(path, true).Failure? ==> r == ListRun([], [], Raised(ParseGcsPath(path, true).error))
    ensures ParseGcsPath(path, true).Success? && fuel > 0 ==>
      |r.sent| > 0 && r.sent[0] == ListRequest(ParseGcsPath(path, true).value.0, ParseGcsPath(path, true).value.1, None)
    ensures forall k :: 0 < k < |r.sent| ==> NextPageAt(r.sent, 0, server, k)
    ensures NamesUnique(r.yielded)
    ensures forall i :: 0 <= i < |r.yielded| ==> FromSomePage(server, 0, r.sent, r.yielded[i])
    ensures forall k :: 0 <= k < |r.sent| ==> ListedAt(r.sent, 0, server, k, Names(r.yielded))
    ensures r.outcome.Finished? ==>
      |r.sent| > 0 && LastReply(r.sent, 0, server).CallOk? &&
      !HasNextPage(LastReply(r.sent, 0, server).response.nextPageToken)
    ensures r.outcome.Raised? && |r.sent| > 0 ==> LastReply(r.sent, 0, server) == CallError(r.outcome.error)
    ensures r.outcome.OutOfFuel? ==>
      |r.sent| == fuel &&
      (fuel > 0 ==> LastReply(r.sent, 0, server).CallOk? &&
                    HasNextPage(LastReply(r.sent, 0, server).response.nextPageToken))
  {
    match ParseGcsPath(path, true)
    case Failure(e) => ListRun([], [], Raised(e))
    case Success((bucket, prefix)) =>
      var r := ListPages(ListRequest(bucket, prefix, None), {}, 0, server, fuel);
      assert {} + Names(r.yielded) == Names(r.yielded);
      r
  }
}

=== FILE: project_number.dfy ===
/** `GcsIO.get_project_number`: a per-client memo from bucket name to the
    bucket's project number, filled from `get_bucket`. */
module GcsProjectNumber {
  import opened Wrappers
  import opened Errors

  /** The part of `storage.Bucket` the memo reads. An unset `projectNumber` is `None`. */
  datatype BucketMetadata = BucketMetadata(projectNumber: Option<int>)

  /** The storage service answering the `call`-th `buckets.Get` for a bucket name. */
  type BucketServer = (nat, string) -> CallResult<BucketMetadata>

  /** `bucket_to_project_number`, and how many bucket lookups were made so far. */
  datatype Memo = Memo(cache: map<string, Option<int>>, lookups: nat)

  /** Every entry of `before` is in `after` with the same value. */
  predicate Extends(before: map<string, Option<int>>, after: map<string, Option<int>>) {
    forall b :: b in before ==> b in after && after[b] == before[b]
  }

  /** `get_bucket(bucket_name)`: the bucket, `None` on an `HttpError`; any
      other error propagates. */
  function GetBucket(bucket: string, call: nat, server: BucketServer): (r: Result<Option<BucketMetadata>, Error>)
    ensures r.Success? && r.value.Some? <==> server(call, bucket).CallOk?
    ensures r.Success? && r.value.Some? ==> r.value.value == server(call, bucket).response
    ensures r.Success? && r.value.None? <==> server(call, bucket).CallError? && server(call, bucket).error.HttpError?
    ensures r.Failure? ==>
      server(call, bucket).CallError? && !server(call, bucket).error.HttpError? && r.error == server(call, bucket).error
  {
    match server(call, bucket)
    case CallOk(metadata) => Success(Some(metadata))
    case CallError(e) => if e.HttpError? then Success(None) else Failure(e)
  }

  /** `get_project_number(bucket)`: a bucket already in the memo is answered
      from it without a lookup; otherwise the bucket is looked up once, and
      a bucket that was found is remembered, even when its project number is
      unset, while a lookup that failed leaves the memo as it was. */
  function GetProjectNumber(memo: Memo, bucket: string, server: BucketServer)
    : (r: Result<(Memo, Option<int>), Error>)
    ensures bucket in memo.cache ==> r == Success((memo, memo.cache[bucket]))
    ensures bucket !in memo.cache ==>
      match server(memo.lookups, bucket)
      case CallOk(metadata) =>
        r == Success((Memo(memo.cache[bucket := metadata.projectNumber], memo.lookups + 1), metadata.projectNumber))
      case CallError(e) =>
        if e.HttpError? then r == Success((Memo(memo.cache, memo.lookups + 1), None)) else r == Failure(e)
    ensures r.Success? ==> Extends(memo.cache, r.value.0.cache) && r.value.0.cache.Keys <= memo.cache.Keys + {bucket}
    ensures r.Success? ==> r.value.1 == (if bucket in r.value.0.cache then r.value.0.cache[bucket] else None)
  {
    if bucket in memo.cache then Success((memo, memo.cache[bucket]))
    else
      var fetched := GetBucket(bucket, memo.lookups, server);
      match fetched
      case Failure(e) => Failure(e)
      case Success(None) => Success((Memo(memo.cache, memo.lookups + 1), None))
      case Success(Some(metadata)) =>
        var cache := memo.cache[bucket := metadata.projectNumber];
        Success((Memo(cache, memo.lookups + 1), metadata.projectNumber))
  }

  /** Once a lookup has succeeded the answer is fixed: asking again returns
      the same project number, makes no lookup and leaves the memo as it was. */
  lemma ProjectNumberIdempotent(memo: Memo, bucket: string, server: BucketServer, later: BucketServer)
    requires GetProjectNumber(memo, bucket, server).Success?
    requires bucket in GetProjectNumber(memo, bucket, server).value.0.cache
    ensures var first := GetProjectNumber(memo, bucket, server).value;
      GetProjectNumber(first.0, bucket, later) == Success(first)
  {
  }

  /** A lookup that answers with an `HttpError` is not remembered: the
      call returns `None` and the next call looks the bucket up again. */
  lemma FailedLookupRetried(memo: Memo, bucket: string, server: BucketServer)
    requires bucket !in memo.cache
    requires server(memo.lookups, bucket).CallError? && server(memo.lookups, bucket).error.HttpError?
    ensures GetProjectNumber(memo, bucket, server) == Success((Memo(memo.cache, memo.lookups + 1), None))
    ensures var next := GetProjectNumber(memo, bucket, server).value.0;
      bucket !in next.cache &&
      (GetProjectNumber(next, bucket, server).Failure? ||
       GetProjectNumber(next, bucket, server).value.0.lookups == next.lookups + 1)
  {
  }

  /** A run of `get_project_number` calls, one per bucket in order. */
  function GetProjectNumbers(memo: Memo, buckets: seq<string>, server: BucketServer)
    : (r: Result<(Memo, seq<Option<int>>), Error>)
    ensures r.Success? ==> |r.value.1| == |buckets| && Extends(memo.cache, r.value.0.cache)
    ensures r.Success? ==> forall i :: 0 <= i < |buckets| && buckets[i] in memo.cache ==>
      r.value.1[i] == memo.cache[buckets[i]]
    ensures r.Success? ==> forall i :: 0 <= i < |buckets| && r.value.1[i].Some? ==>
      buckets[i] in r.value.0.cache && r.value.0.cache[buckets[i]] == r.value.1[i]
    ensures r.Success? ==> forall i, j :: 0 <= i < j < |buckets| && buckets[i] == buckets[j] && r.value.1[i].Some? ==>
      r.value.1[j] == r.value.1[i]
    decreases |buckets|
  {
    if buckets == [] then Success((memo, []))
    else
      match GetProjectNumber(memo, buckets[0], server)
      case Failure(e) => Failure(e)
      case Success((next, number)) =>
        match GetProjectNumbers(next, buckets[1..], server)
        case Failure(e) => Failure(e)
        case Success((final, numbers)) =>
          var all := [number] + numbers;
          assert forall i :: 1 <= i < |buckets| ==> all[i] == numbers[i - 1] && buckets[i] == buckets[1..][i - 1];
          Success((final, all))
  }
}

=== FILE: seqs.dfy ===
/** Small sequence notions shared by the batch operations. */
module Seqs {

  /** No element occurs twice. */
  predicate NoDup<T(==)>(s: seq<T>) {
    forall i, j :: 0 <= i < j < |s| ==> s[i] != s[j]
  }

  function Last<T>(s: seq<T>): T
    requires |s| > 0
  {
    s[|s| - 1]
  }

  function Min(a: int, b: int): int {
    if a <= b then a else b
  }

  /** `ceil(n / m)` for a positive divisor. */
  function CeilDiv(n: nat, m: nat): nat
    requires m > 0
  {
    (n + m - 1) / m
  }

  /** The concatenation of a sequence of sequences. */
  function Flatten<T>(ss: seq<seq<T>>): seq<T> {
    if ss == [] then [] else ss[0] + Flatten(ss[1..])
  }

  /** The elements of `s` that are not in `seen`, each once, in the order of
      their first occurrence; models iterating a list while skipping what a
      Python `set` already holds. */
  function Dedup<T(==)>(s: seq<T>, seen: set<T>): (d: seq<T>)
    ensures NoDup(d)
    ensures forall i :: 0 <= i < |d| ==> d[i] in s && d[i] !in seen
    ensures forall i :: 0 <= i < |s| && s[i] !in seen ==> s[i] in d
    decreases |s|
  {
    if s == [] then []
    else if s[0] in seen then Dedup(s[1..], seen)
    else [s[0]] + Dedup(s[1..], seen + {s[0]})
  }
}

=== FILE: tree.dfy ===
/** `GcsIO.list_prefix` and `GcsIO.copytree`: collecting a listing into a
    dictionary, then copying every listed object under a new prefix, one
    copy after the other, stopping at the first copy that raises. */
module GcsTree {
  import opened Wrappers
  import opened Errors
  import opened Seqs
  import GcsListing
  import GcsCopy

  /** Python's `s.endswith('/')`. */
  predicate EndsWithSlash(s: string) {
    |s| > 0 && s[|s| - 1] == '/'
  }

  /** `entry[len(src):]`. Python slicing clamps, so an entry no longer than
      `src` gives the empty string. */
  function RelPath(src: string, entry: string): string {
    if |entry| <= |src| then "" else entry[|src|..]
  }

  /** The relative path is what is left of `entry` once as many characters
      as `src` has are dropped from its front; for an entry under `src`,
      `src` followed by it gives the entry back. */
  lemma RelPathStripsSource(src: string, entry: string)
    ensures var rel := RelPath(src, entry);
      && |rel| == (if |entry| <= |src| then 0 else |entry| - |src|)
      && rel == entry[|entry| - |rel|..]
      && (src <= entry ==> src + rel == entry)
  {
  }

  /** `dest + rel_path`: where `copytree` copies `entry` to. */
  function Target(src: string, dest: string, entry: string): string {
    dest + RelPath(src, entry)
  }

  /** An entry `src + rel` lands at `dest + rel`: the path below the source
      prefix is kept. */
  lemma TargetKeepsRelative(src: string, dest: string, rel: string)
    ensures Target(src, dest, src + rel) == dest + rel
  {
    assert (src + rel)[|src|..] == rel;
  }

  /** Two entries under `src` land at the same target only if they are the
      same entry, so `copytree` never copies two objects onto one. */
  lemma TargetInjective(src: string, dest: string, a: string, b: string)
    requires src <= a && src <= b
    requires Target(src, dest, a) == Target(src, dest, b)
    ensures a == b
  {
    var ra, rb := RelPath(src, a), RelPath(src, b);
    assert dest + ra == dest + rb;
    assert ra == (dest + ra)[|dest|..];
    assert rb == (dest + rb)[|dest|..];
    assert a[..|src|] == src && b[..|src|] == src;
  }

  /** The dictionary `list_prefix` builds: file name to size. */
  function ToDict(files: seq<GcsListing.FileInfo>): (d: map<string, int>)
    ensures d.Keys == GcsListing.Names(files)
    ensures forall i :: 0 <= i < |files| ==> files[i].0 in d
  {
    if files == [] then map[]
    else
      var d := ToDict(files[..|files| - 1])[Last(files).0 := Last(files).1];
      assert GcsListing.Names(files) == GcsListing.Names(files[..|files| - 1]) + {Last(files).0} by {
        GcsListing.NamesConcat(files[..|files| - 1], [Last(files)]);
        assert files == files[..|files| - 1] + [Last(files)];
        assert [Last(files)][0].0 == Last(files).0;
      }
      assert forall i :: 0 <= i < |files| - 1 ==> files[i] == files[..|files| - 1][i];
      d
  }

  /** Because the listing yields each name once, no entry of the dictionary
      is overwritten: every yielded file keeps its own size. */
  lemma {:induction false} ToDictKeepsSizes(files: seq<GcsListing.FileInfo>)
    requires GcsListing.NamesUnique(files)
    ensures forall i :: 0 <= i < |files| ==> ToDict(files)[files[i].0] == files[i].1
    decreases |files|
  {
    if files != [] {
      var init := files[..|files| - 1];
      assert GcsListing.NamesUnique(init) by {
        assert forall i :: 0 <= i < |init| ==> init[i] == files[i];
      }
      ToDictKeepsSizes(init);
      forall i | 0 <= i < |files|
        ensures ToDict(files)[files[i].0] == files[i].1
      {
        if i < |files| - 1 {
          assert files[i] == init[i];
          assert files[i].0 != Last(files).0;
        }
      }
    }
  }

  /** `list_prefix(path)`: the whole listing, gathered into a dictionary
      before the caller sees any of it. */
  function ListPrefix(path: string, server: GcsListing.ListServer, fuel: nat): (r: Run<map<string, int>>)
    ensures r.Finished? <==> GcsListing.ListFiles(path, server, fuel).outcome.Finished?
    ensures r.Raised? ==> GcsListing.ListFiles(path, server, fuel).outcome == Raised(r.error)
    ensures GcsListing.ListFiles(path, server, fuel).outcome.Raised? ==>
      r == Raised(GcsListing.ListFiles(path, server, fuel).outcome.error)
    ensures r.Finished? ==> r.value.Keys == GcsListing.Names(GcsListing.ListFiles(path, server, fuel).yielded)
    ensures r.Finished? ==> var files := GcsListing.ListFiles(path, server, fuel).yielded;
      forall i :: 0 <= i < |files| ==> r.value[files[i].0] == files[i].1
  {
    var listing := GcsListing.ListFiles(path, server, fuel);
    match listing.outcome
    case Finished(_) =>
      ToDictKeepsSizes(listing.yielded);
      Finished(ToDict(listing.yielded))
    case Raised(e) => Raised(e)
    case OutOfFuel => OutOfFuel
  }

  /** `run` is the exchange of copying `source` to `target` with default options. */
  predicate CopiedAs(run: GcsCopy.CopyRun, source: string, target: string, server: GcsCopy.RewriteServer, fuel: nat) {
    run == GcsCopy.Copy(source, target, None, None, server, fuel)
  }

  /** Every copy in `runs` completed. */
  predicate AllFinished(runs: seq<GcsCopy.CopyRun>) {
    forall k :: 0 <= k < |runs| ==> runs[k].outcome.Finished?
  }

  /** What `copytree` did: the listing, the `(source, target)` pairs it
      copied in order, each copy's exchange, and how it ended. */
  datatype TreeRun = TreeRun(listing: Option<GcsListing.ListRun>, pairs: seq<(string, string)>,
                             copies: seq<GcsCopy.CopyRun>, outcome: Run<()>)

  /** Copying one entry: the entry's position in the listing, the source
      and the target give the copy's exchange. */
  type Copier = (nat, string, string) -> GcsCopy.CopyRun

  /** The copies of `entries[i..]`, in order, each to its target. Stops at
      the first copy that does not finish. */
  function CopyEach(src: string, dest: string, entries: seq<GcsListing.FileInfo>, i: nat, copy: Copier)
    : (r: (seq<(string, string)>, seq<GcsCopy.CopyRun>, Run<()>))
    requires i <= |entries|
    ensures |r.0| == |r.1| <= |entries| - i
    ensures forall k :: 0 <= k < |r.0| ==>
      r.0[k] == (entries[i + k].0, Target(src, dest, entries[i + k].0)) &&
      r.1[k] == copy(i + k, r.0[k].0, r.0[k].1)
    ensures forall k :: 0 <= k < |r.1| - 1 ==> r.1[k].outcome.Finished?
    ensures r.2.Finished? <==> |r.1| == |entries| - i && AllFinished(r.1)
    ensures !r.2.Finished? ==> |r.1| > 0 && r.2 == Last(r.1).outcome
    decreases |entries| - i
  {
    if i == |entries| then ([], [], Finished(()))
    else
      var source := entries[i].0;
      var target := Target(src, dest, source);
      var copied := copy(i, source, target);
      if !copied.outcome.Finished? then
        assert [copied][0] == copied;
        ([(source, target)], [copied], copied.outcome)
      else
        var rest := CopyEach(src, dest, entries, i + 1, copy);
        CopyEachCons(src, dest, entries, i, copy, (source, target), copied, rest.0, rest.1);
        assert |rest.1| > 0 ==> Last([copied] + rest.1) == Last(rest.1);
        ([(source, target)] + rest.0, [copied] + rest.1, rest.2)
  }

  /** Prepending the finished copy of `entries[i]` to the copies of the
      entries after it keeps every copy at its own entry. */
  lemma CopyEachCons(src: string, dest: string, entries: seq<GcsListing.FileInfo>, i: nat, copy: Copier,
                     pair: (string, string), run: GcsCopy.CopyRun,
                     pairs: seq<(string, string)>, runs: seq<GcsCopy.CopyRun>)
    requires i < |entries| && |pairs| == |runs| <= |entries| - i - 1
    requires pair == (entries[i].0, Target(src, dest, entries[i].0)) && run == copy(i, pair.0, pair.1)
    requires run.outcome.Finished?
    requires forall k :: 0 <= k < |pairs| ==>
      pairs[k] == (entries[i + 1 + k].0, Target(src, dest, entries[i + 1 + k].0)) &&
      runs[k] == copy(i + 1 + k, pairs[k].0, pairs[k].1)
    ensures forall k :: 0 <= k < |[pair] + pairs| ==>
      ([pair] + pairs)[k] == (entries[i + k].0, Target(src, dest, entries[i + k].0)) &&
      ([run] + runs)[k] == copy(i + k, ([pair] + pairs)[k].0, ([pair] + pairs)[k].1)
    ensures AllFinished([run] + runs) <==> AllFinished(runs)
  {
    var ps, rs := [pair] + pairs, [run] + runs;
    forall k | 0 < k < |ps|
      ensures ps[k] == (entries[i + k].0, Target(src, dest, entries[i + k].0)) &&
              rs[k] == copy(i + k, ps[k].0, ps[k].1)
    {
      assert ps[k] == pairs[k - 1] && rs[k] == runs[k - 1];
      assert i + k == i + 1 + (k - 1);
    }
    if AllFinished(rs) {
      forall k | 0 <= k < |runs|
        ensures runs[k].outcome.Finished?
      {
        assert rs[k + 1] == runs[k];
      }
    }
  }

  /** `copytree(src, dest)`: both paths must end in `/`; the listing of
      `src` is gathered in full, then every listed entry is copied to
      `dest` followed by the part of its name after `src`, in listing order.
      The source iterates the dictionary `list_prefix` returns; a dictionary
      keeps insertion order and the listing yields each name once, so its
      keys are the yielded names in the order they were yielded. */
  function CopyTree(src: string, dest: string, list: GcsListing.ListServer,
                    rewrite: nat -> GcsCopy.RewriteServer, fuel: nat): (r: TreeRun)
    ensures !(EndsWithSlash(src) && EndsWithSlash(dest)) <==> r.outcome == Raised(AssertionError) && r.listing.None?
    ensures r.listing.Some? ==> r.listing.value == GcsListing.ListFiles(src, list, fuel)
    ensures EndsWithSlash(src) && EndsWithSlash(dest) ==> r.listing == Some(GcsListing.ListFiles(src, list, fuel))
    ensures r.listing.Some? && !r.listing.value.outcome.Finished? ==>
      r.pairs == [] && r.outcome == r.listing.value.outcome
    ensures r.pairs != [] ==> r.listing.Some? && r.listing.value.outcome.Finished?
    ensures |r.pairs| == |r.copies|
    ensures r.listing.Some? ==> |r.pairs| <= |r.listing.value.yielded|
    ensures r.listing.Some? ==> forall k :: 0 <= k < |r.pairs| ==>
      r.pairs[k] == (r.listing.value.yielded[k].0, Target(src, dest, r.listing.value.yielded[k].0)) &&
      CopiedAs(r.copies[k], r.pairs[k].0, r.pairs[k].1, rewrite(k), fuel)
    ensures forall k :: 0 <= k < |r.copies| - 1 ==> r.copies[k].outcome.Finished?
    ensures r.outcome.Finished? <==>
      r.listing.Some? && r.listing.value.outcome.Finished? && |r.pairs| == |r.listing.value.yielded| &&
      AllFinished(r.copies)
    ensures r.copies != [] && !r.outcome.Finished? ==> r.outcome == Last(r.copies).outcome
  {
    if !(EndsWithSlash(src) && EndsWithSlash(dest)) then TreeRun(None, [], [], Raised(AssertionError))
    else
      var listing := GcsListing.ListFiles(src, list, fuel);
      if !listing.outcome.Finished? then TreeRun(Some(listing), [], [], listing.outcome)
      else
        var copy := (k: nat, source: string, target: string) =>
          GcsCopy.Copy(source, target, None, None, rewrite(k), fuel);
        var done := CopyEach(src, dest, listing.yielded, 0, copy);
        TreeRun(Some(listing), done.0, done.1, done.2)
  }

  /** Every object `copytree` copies from below `src` keeps its path
      relative to `src` under `dest`, and no two copies share a target. */
  lemma CopyTreeTargetsDistinct(src: string, dest: string, list: GcsListing.ListServer,
                                rewrite: nat -> GcsCopy.RewriteServer, fuel: nat)
    ensures var r := CopyTree(src, dest, list, rewrite, fuel);
      forall k, rel :: 0 <= k < |r.pairs| && r.pairs[k].0 == src + rel ==> r.pairs[k].1 == dest + rel
    ensures var r := CopyTree(src, dest, list, rewrite, fuel);
      forall j, k :: 0 <= j < k < |r.pairs| && src <= r.pairs[j].0 && src <= r.pairs[k].0 ==>
        r.pairs[j].1 != r.pairs[k].1
  {
    var r := CopyTree(src, dest, list, rewrite, fuel);
    forall k, rel | 0 <= k < |r.pairs| && r.pairs[k].0 == src + rel
      ensures r.pairs[k].1 == dest + rel
    {
      TargetKeepsRelative(src, dest, rel);
    }
    forall j, k | 0 <= j < k < |r.pairs| && src <= r.pairs[j].0 && src <= r.pairs[k].0
      ensures r.pairs[j].1 != r.pairs[k].1
    {
      var files := r.listing.value.yielded;
      assert files[j].0 != files[k].0;
      if r.pairs[j].1 == r.pairs[k].1 {
        TargetInjective(src, dest, r.pairs[j].0, r.pairs[k].0);
      }
    }
  }
}

=== FILE: wrappers.dfy ===
/** Failure-compatible Option and Result types used throughout the model. */
module Wrappers {

  /** An optional value; models a Python value that may be `None`. */
  datatype Option<+T> = None | Some(value: T)

  /** Either a value or the error that the Python code would raise instead. */
  datatype Result<+T, +E> = Success(value: T) | Failure(error: E) {

    predicate IsFailure() {
      Failure?
    }

    function PropagateFailure<U>(): Result<U, E>
      requires Failure?
    {
      Failure(error)
    }

    function Extract(): T
      requires Success?
    {
      value
    }
  }
}
